=== FILE: README.md ===
# Study planner: a Dafny model of the session, routing and data core

Study planner is an Angular single-page app. A signed-in student keeps tasks,
goals and notes in a Firestore document store. This project models, in Dafny,
the parts of the app that decide who is signed in, which page is shown, and
what is written to and read from the store. It also models the five views
(dashboard, tasks, goals, notes, register) as pure functions from their inputs
to the store, the view state and the snack-bar message they leave behind.

Modules, one per file:

- `Wrappers`: `Option` and `Result`.
- `Times`: the three shapes an instant takes in the app (`Date`, Firestore
  `Timestamp`, ISO string), with the conversions and method lookups the code
  performs on them.
- `Sorting`: sorting by an integer key and `slice(0, n)`. `SortOrThrow` is a
  JavaScript sort whose comparator throws when an element lacks the key.
- `Navigations`: a router navigation with an optional `returnUrl` and the
  `replaceUrl` flag.
- `Session`: the authentication service.
  - The session cell fed by `onAuthStateChanged`, and what a subscriber sees.
  - `getCurrentUser`.
  - Google sign-in and its error mapping.
  - `signOut`.
  - A three-state view of the session (unknown, signed in, signed out) that
    the code collapses to `null` / user.
- `AuthGuard`: the route guard as written, and the intended guard.
- `Routes`: the route table, first-match resolution, redirects, and
  activation through the installed guard and through the intended one.
- `Bootstrap`: the start-up decision table of `initializeApp`, including its
  `catch` branch.
- `DataService`: the three record types and the per-collection
  get/add/update/delete.
  - The store is three maps from document id to record.
  - A store fault and the fresh document id are parameters.
- `Feedback`: the snack-bar message a view shows.
- `TasksView`, `GoalsView`, `NotesView`, `DashboardView`, `RegisterView`: the
  components' actions.

Facts about the code that the model makes explicit:

- The session is not tri-state. The cell starts at `null`, so "not yet known"
  and "signed out" look the same (`Session.NotYetKnownLooksSignedOut`).
- The guard never redirects a signed-out user. It drops `null` values and waits
  (see the `auth.guard.ts:12-25` row under Findings).
- Goal progress is not clamped to 0..100 anywhere (`DataService.ProgressIsNotClamped`).
- A Google error code other than the three mapped ones is rethrown unchanged,
  not turned into a generic error.
- `/dashboard` carries no guard in the route table. Only the start-up check
  treats it as protected.
- An update does not convert dates. A `Date` in a patch is stored as a
  `Timestamp`.

## Model

| member | source | states |
|---|---|---|
| Times.ToIsoString | src/app/services/data.service.ts:53 | only a `Date` has `toISOString`; the string carries the same instant |
| Times.StoreEncode | src/app/services/data.service.ts:80-83 | a stored `Date` comes back as a `Timestamp` of the same instant; strings and timestamps are stored as they are |
| Times.GetTime | src/app/components/tasks/tasks.component.ts:221 | `getTime` answers exactly for a `Date`, with its instant |
| Times.DateOrTimestampMillis | src/app/components/notes/notes.component.ts:331-332 | the notes key is defined for a `Date` or a `Timestamp` and undefined for a string |
| Times.ConvertToDate | src/app/components/dashboard/dashboard.component.ts:285-288 | a missing value becomes the epoch; a `Timestamp` becomes a `Date`; a string stays a string; the instant is kept |
| Times.ToDate | src/app/components/dashboard/dashboard.component.ts:267 | every shape reads as a `Date` of the same instant |
| Times.DashboardFormatDate | src/app/components/dashboard/dashboard.component.ts:290-306 | a falsy or unknown value formats as empty; every time shape formats its instant |
| Times.NotesFormatDate | src/app/components/notes/notes.component.ts:452-466 | only a `Timestamp` or a `Date` formats; a string gives the empty string |
| Times.FormatDatesDifferOnlyOnStrings | src/app/components/notes/notes.component.ts:452-466 | the two `formatDate`s disagree exactly on ISO strings |
| Sorting.SortByKey | src/app/components/goals/goals.component.ts:250 | the result is a permutation of the input in ascending key order |
| Sorting.SortDescending | src/app/components/dashboard/dashboard.component.ts:273 | the comparator `key(b) - key(a)` gives a permutation in descending key order |
| Sorting.Take | src/app/components/dashboard/dashboard.component.ts:253 | `slice(0, n)` is the prefix of length min(n, length) |
| Sorting.TakeOfDescendingKeepsLargest | src/app/components/dashboard/dashboard.component.ts:273-274 | the first n of a descending list have keys no smaller than any element cut off |
| Sorting.TopByKey | src/app/components/dashboard/dashboard.component.ts:273-274 | sort-then-slice keeps min(n, length) elements of the input, descending, and they are the largest |
| Sorting.SortOrThrow | src/app/components/notes/notes.component.ts:330-334 | a sort whose comparator reads a key fails exactly when there are two or more elements and one lacks the key; otherwise it is a permutation in the requested order |
| Navigations.LoginReturningTo | src/app/services/app-initializer.service.ts:22-24 | the start-up redirect: to `/login` carrying the given return URL, as a new history entry |
| Navigations.GuardRedirect | src/app/guards/auth.guard.ts:19-23 | the guard's redirect: to `/login` carrying the given return URL, replacing the current history entry |
| Session.RunEndsAtLast | src/app/services/auth.service.ts:17-20 | after a run of notifications the cell holds the last one, or its start value if there were none |
| Session.Current | src/app/services/auth.service.ts:10-20 | the cell is `null` before the first notification and the latest notification after it |
| Session.Observed | src/app/services/auth.service.ts:10-11 | a late subscriber first sees the cell's value at subscription time, then every later notification |
| Session.FirstValue | src/app/services/auth.service.ts:25 | `firstValueFrom` gives the first value, and an error exactly on an empty stream |
| Session.GetCurrentUser | src/app/services/auth.service.ts:23-32 | the first value seen, or `null` when the lookup fails; it never fails |
| Session.GetCurrentUserReadsCell | src/app/services/auth.service.ts:23-32 | `getCurrentUser` answers with the cell's current value, `null` before the first notification |
| Session.StateAfter | src/app/services/auth.service.ts:10-20 | the three-state session is unknown exactly before the first notification |
| Session.UnknownOnlyBeforeFirstNotification | src/app/services/auth.service.ts:10-20 | a subscriber sees "unknown" only as its first value, and only when it subscribed before any notification |
| Session.EraseObservedState | src/app/services/auth.service.ts:10-20 | collapsing the three-state view gives exactly the values the code's subscriber sees |
| Session.NotYetKnownLooksSignedOut | src/app/services/auth.service.ts:10 | "not yet known" and "signed out" both read as `null`, though they are different states |
| Session.GoogleProvider | src/app/services/auth.service.ts:54-59 | the provider asks for account selection and the `profile` and `email` scopes |
| Session.MapGoogleError | src/app/services/auth.service.ts:65-76 | each of three codes maps to its fixed message, in both directions; every other code is rethrown unchanged |
| Session.MapGoogleErrorInjective | src/app/services/auth.service.ts:65-76 | distinct provider codes never map to the same failure |
| Session.SignInWithGoogle | src/app/services/auth.service.ts:52-77 | the popup's user on success; on failure exactly the mapped error |
| Session.SignOut | src/app/services/auth.service.ts:79-86 | the provider sign-out comes first; the `/login` navigation happens iff it succeeded; a failure is rethrown |
| AuthGuard.MapUser | src/app/guards/auth.guard.ts:14-26 | a user is allowed; a missing user is denied after the redirect to `/login` with the current path and `replaceUrl` |
| AuthGuard.FirstNonNull | src/app/guards/auth.guard.ts:12-13 | `filter` then `take(1)` picks the first non-null value, and none exists iff every value is null |
| AuthGuard.GuardAsWritten | src/app/guards/auth.guard.ts:6-28 | the guard emits iff some non-null value arrives, and then it always allows |
| AuthGuard.GuardIgnoresLaterValues | src/app/guards/auth.guard.ts:12-13 | once a non-null value was seen, later values do not change the decision |
| AuthGuard.SignedOutNavigationNeverSettles | src/app/guards/auth.guard.ts:12-25 | for a signed-out session the guard never emits, so the redirect branch cannot run |
| AuthGuard.FirstKnown | src/app/guards/auth.guard.ts:11-13 | the first answered value of the three-state view, and none exists iff every value is unknown |
| AuthGuard.Guard | src/app/guards/auth.guard.ts:14-25 | the intended guard waits only while unknown, then allows a user and redirects an anonymous visitor to `/login` with the return URL |
| AuthGuard.NoRedirectWhileUnknown | src/app/guards/auth.guard.ts:11-16 | unknown values followed by a sign-in yield an allow, never a redirect first |
| AuthGuard.GuardAllowImpliesAsWrittenAllow | src/app/guards/auth.guard.ts:12-16 | wherever the intended guard allows, the written guard allows too |
| Routes.FirstMatch | src/app/app.routes.ts:4-41 | the index of the first route whose path matches, if any |
| Routes.Resolve | src/app/app.routes.ts:4-41 | the resolved route is the first matching entry of the table |
| Routes.ListedBeforeWildcard | src/app/app.routes.ts:4-41 | every named path precedes the wildcard entry |
| Routes.ResolveListed | src/app/app.routes.ts:5-36 | a listed path resolves to its own entry |
| Routes.ResolveListedPaths | src/app/app.routes.ts:5-36 | the concrete targets of `''`, `dashboard`, `login`, `register`, `tasks`, `goals` and `notes` |
| Routes.WildcardCatchesExactlyUnlisted | src/app/app.routes.ts:37-40 | `**` is reached exactly by paths not in the table |
| Routes.RedirectsNameLogin | src/app/app.routes.ts:5-9 | both redirects lead to `login` |
| Routes.Follow | src/app/app.routes.ts:4-41 | following one redirect always ends at a page to load, the login page for a redirect |
| Routes.FollowCharacterised | src/app/app.routes.ts:22-36 | a page is guarded iff its path is `tasks`, `goals` or `notes`; unlisted paths, `''` and `login` end at the login page |
| Routes.ActivateAsWritten | src/app/app.routes.ts:22-36 | with the installed guard: unguarded pages show at once; a guarded page is pending iff every value seen is `null` and shown otherwise; a shown page is the one the path leads to; it never redirects |
| Routes.FollowPages | src/app/app.routes.ts:5-36 | the page each listed path ends at: `''` and `login` the login page, and each other path its own page |
| Routes.Activate | src/app/app.routes.ts:22-36 | with the intended guard (the corrected half of the `auth.guard.ts:12-25` finding): unguarded pages show at once; a guarded page is pending exactly while the session is unknown; a shown page is the one the path leads to; a redirect goes to `/login` with the page's own URL |
| Routes.AsWrittenShowsWhatSignedInSees | src/app/app.routes.ts:22-36 | any page the installed guard shows is the page the intended guard shows a signed-in user |
| Routes.SignedOutGuardedNavigationHangs | src/app/guards/auth.guard.ts:12-25 | for a guarded page and a signed-out session, the installed guard leaves the navigation pending while the intended one redirects to `/login` |
| Routes.DashboardIsNotGuarded | src/app/app.routes.ts:10-13 | the dashboard is shown whatever the session holds, with either guard |
| Routes.SignOutLandsOnLogin | src/app/services/auth.service.ts:79-86 | the navigation a successful sign-out asks for shows the login page, with either guard |
| Routes.SignedInReachesGuardedPages | src/app/app.routes.ts:22-36 | a signed-in user reaches the guarded page they asked for (`tasks`, `goals` or `notes`) once the provider has answered |
| Bootstrap.Decide | src/app/services/app-initializer.service.ts:17-44 | each of the four branches fires exactly under its condition, and nothing happens otherwise |
| Bootstrap.DecisionSettles | src/app/services/app-initializer.service.ts:20-44 | at the target of any decision the table asks for no further navigation |
| Bootstrap.DecisionLandsOnUnguardedPage | src/app/services/app-initializer.service.ts:20-44 | every target of the table is a page the router shows without its guard |
| Bootstrap.Initialize | src/app/services/app-initializer.service.ts:14-55 | at most two navigations; the `catch` retries `/login` with a return URL iff the first was rejected on a protected path |
| Bootstrap.StartUpScenarios | src/app/services/app-initializer.service.ts:21-32 | signed out on `/tasks` goes to `/login?returnUrl=/tasks`; signed in on `/login` goes to `/dashboard` |
| Bootstrap.ColdStartLooksSignedOut | src/app/services/app-initializer.service.ts:17-26 | a check before the first notification sends even a soon-signed-in user to `/login` |
| DataService.Where | src/app/services/data.service.ts:41-45 | `where` keeps exactly the documents passing the filter, and `idField` gives each its key |
| DataService.Insert | src/app/services/data.service.ts:80-83 | `addDoc` adds exactly the new document under the fresh key, or fails with the store's reason and changes nothing |
| DataService.Modify | src/app/services/data.service.ts:63-66 | `updateDoc` changes exactly the addressed document; it fails with the path when no document is there, or with the store's reason |
| DataService.Remove | src/app/services/data.service.ts:68-71 | `deleteDoc` removes exactly the addressed key, whether or not it existed, or fails with the store's reason |
| DataService.ApplyTaskPatch | src/app/services/data.service.ts:63-66 | `id` is kept; every omitted field keeps its value; every supplied field takes the new value, a new due date keeping its instant |
| DataService.ApplyGoalPatch | src/app/services/data.service.ts:85-88 | `id` is kept; every omitted field keeps its value; every supplied field takes the new value, `progress` as given and a new target date keeping its instant |
| DataService.ApplyNotePatch | src/app/services/data.service.ts:107-110 | `id` is kept; every omitted field keeps its value; every supplied field (title, content, kind, photo, recording, owner) takes the new value, a new creation time keeping its instant |
| DataService.PatchesAreIdempotent | src/app/services/data.service.ts:63-110 | merging a patch twice is merging it once |
| DataService.GetTasks | src/app/services/data.service.ts:41-45 | exactly the user's tasks, each with its key as `id` and nothing else changed |
| DataService.AddTask | src/app/services/data.service.ts:47-61 | writes under a fresh id with the due date as an ISO string; a due date that is not a `Date` throws; a refused write is rethrown; nothing else changes |
| DataService.UpdateTask | src/app/services/data.service.ts:63-66 | succeeds iff the document exists and the store accepts; fails with `tasks/<id>` not found otherwise; only that document changes |
| DataService.DeleteTask | src/app/services/data.service.ts:68-71 | exactly that id is removed; deleting a missing id succeeds |
| DataService.GetGoals | src/app/services/data.service.ts:74-78 | exactly the user's goals, with ids |
| DataService.AddGoal | src/app/services/data.service.ts:80-83 | the goal is stored as given, its `Date` as a `Timestamp` |
| DataService.UpdateGoal | src/app/services/data.service.ts:85-88 | as for tasks, at `goals/<id>` |
| DataService.DeleteGoal | src/app/services/data.service.ts:90-93 | exactly that id is removed |
| DataService.GetNotes | src/app/services/data.service.ts:96-100 | exactly the user's notes, with ids |
| DataService.AddNote | src/app/services/data.service.ts:102-105 | the note is stored as given, its `Date` as a `Timestamp` |
| DataService.UpdateNote | src/app/services/data.service.ts:107-110 | as for tasks, at `notes/<id>` |
| DataService.DeleteNote | src/app/services/data.service.ts:112-115 | exactly that id is removed |
| DataService.AddTaskThenGet | src/app/services/data.service.ts:41-61 | an added task is read back by its owner with the same fields and instant, now an ISO string; other users' views are unchanged |
| DataService.AddGoalThenGet | src/app/services/data.service.ts:74-83 | an added goal is read back with the same instant and unclamped progress; other users' views are unchanged |
| DataService.AddNoteThenGet | src/app/services/data.service.ts:96-105 | an added note is read back by its owner and never by another user |
| DataService.DeleteTaskThenGet | src/app/services/data.service.ts:41-45 | after a delete the owner's view has lost exactly that id |
| DataService.DeleteGoalThenGet | src/app/services/data.service.ts:74-93 | the same for goals |
| DataService.DeleteNoteThenGet | src/app/services/data.service.ts:96-115 | the same for notes |
| DataService.ProgressIsNotClamped | src/app/services/data.service.ts:85-88 | any progress value, in range or not, is stored and read back as given |
| TasksView.SortAsWritten | src/app/components/tasks/tasks.component.ts:221 | the written sort fails exactly when two or more tasks exist and one due date is not a `Date`; otherwise it is a permutation in ascending due instant |
| TasksView.SortAsWrittenFailsOnStoredTasks | src/app/components/tasks/tasks.component.ts:221 | two tasks written through `addTask` make the written sort fail |
| TasksView.SortForDisplay | src/app/components/tasks/tasks.component.ts:221 | a permutation in ascending due instant, for any stored shape |
| TasksView.LoadTasksAsWritten | src/app/components/tasks/tasks.component.ts:210-233 | the list changes only for a signed-in user whose written sort succeeds, and then shows every emitted task in ascending due instant |
| TasksView.LoadTasks | src/app/components/tasks/tasks.component.ts:210-233 | every emission for a signed-in user is shown in due order |
| TasksView.LoadTasksAfterTwoAdds | src/app/components/tasks/tasks.component.ts:218-222 | after two adds the written load keeps the old list; the intended one shows both |
| TasksView.TaskFromForm | src/app/components/tasks/tasks.component.ts:250-255 | the written task has the user's id, a fresh `Date` for the due date, and is never completed |
| TasksView.AddTask | src/app/components/tasks/tasks.component.ts:235-278 | no user means no write; success stores the task, keeps every existing task and leaves goals and notes untouched, and resets the form; failure keeps the store and the form and shows the error; loading always ends |
| TasksView.ToggleTask | src/app/components/tasks/tasks.component.ts:280-286 | writes the whole flipped task to its own id, every other document unchanged; vibrates iff the write succeeded and the task became completed |
| TasksView.DeleteTask | src/app/components/tasks/tasks.component.ts:288-290 | deletes exactly the task's own id; every other document is unchanged |
| GoalsView.OnProgressChange | src/app/components/goals/goals.component.ts:235-237 | after a slider change, the form's progress is the slider value, with `null` read as 0 |
| GoalsView.SortAsWritten | src/app/components/goals/goals.component.ts:250 | fails exactly when two or more goals exist and one target date is not a `Date`; otherwise a permutation in ascending target instant |
| GoalsView.SortAsWrittenFailsOnStoredGoals | src/app/components/goals/goals.component.ts:250 | two stored goals make the written sort fail, because the store returns a `Timestamp` |
| GoalsView.SortForDisplay | src/app/components/goals/goals.component.ts:250 | a permutation in ascending target instant |
| GoalsView.LoadGoalsAsWritten | src/app/components/goals/goals.component.ts:240-265 | no user leaves the spinner on; a stream error shows an error; a throwing sort leaves the old list and the spinner on; otherwise every emitted goal is shown in ascending target instant |
| GoalsView.LoadGoals | src/app/components/goals/goals.component.ts:240-265 | every emission for a signed-in user is shown in target order and loading ends |
| GoalsView.LoadGoalsAgreesWhenSortSucceeds | src/app/components/goals/goals.component.ts:247-252 | where the written load finishes, the intended one shows the same goals |
| GoalsView.GoalFromForm | src/app/components/goals/goals.component.ts:278-281 | the written goal is the form's contents with the user's id |
| GoalsView.AddGoalAsWritten | src/app/components/goals/goals.component.ts:267-300 | an incomplete form is refused with its message; no user means no write; success adds the goal, keeps every other document and resets the form but not the slider; loading always ends |
| GoalsView.AddGoalAsWrittenLosesSync | src/app/components/goals/goals.component.ts:287-292 | after an add, the slider and the form disagree |
| GoalsView.AddGoal | src/app/components/goals/goals.component.ts:267-300 | the same writes as the written add, and the slider stays in step with the form |
| GoalsView.UpdateProgress | src/app/components/goals/goals.component.ts:302-316 | an unchanged value writes nothing; otherwise only `progress` of that goal is written, unclamped, every other document unchanged, with success or failure shown |
| GoalsView.DeleteGoal | src/app/components/goals/goals.component.ts:318-329 | deletes exactly the goal's own id, every other document unchanged, or shows the failure |
| NotesView.Validate | src/app/components/notes/notes.component.ts:347-365 | the four checks in order, each message exactly under its condition |
| NotesView.ValidationFollowsKind | src/app/components/notes/notes.component.ts:352-365 | a titled note of each kind is accepted iff its kind's own content is present |
| NotesView.NoteFromForm | src/app/components/notes/notes.component.ts:371-375 | the written note is the form's contents with the user's id and the current instant |
| NotesView.AddNote | src/app/components/notes/notes.component.ts:345-394 | a failed check writes nothing and shows its message; success stores the note with a `Timestamp`, keeps every other document and resets the form; loading always ends |
| NotesView.SortForDisplay | src/app/components/notes/notes.component.ts:330-334 | newest first; fails exactly when two or more notes exist and one creation time is a string |
| NotesView.AddNoteKeepsDatesReadable | src/app/components/notes/notes.component.ts:371-377 | adding a note never stores a string creation time |
| NotesView.StoredNotesAlwaysSort | src/app/components/notes/notes.component.ts:328-334 | a user's notes from such a store always sort |
| NotesView.LoadNotes | src/app/components/notes/notes.component.ts:326-343 | a stream error shows an error; a throwing sort leaves the old list and the spinner on; otherwise every emitted note is shown, newest first |
| NotesView.DeleteNote | src/app/components/notes/notes.component.ts:439-450 | deletes exactly the note's own id, every other document unchanged, or shows the failure |
| DashboardView.RecentTasksAsWritten | src/app/components/dashboard/dashboard.component.ts:247-253 | fails exactly when two or more tasks exist and one due date is a string; otherwise min(5, n) of the converted tasks, latest due first, none left out due later than one kept |
| DashboardView.RecentTasks | src/app/components/dashboard/dashboard.component.ts:247-253 | the five latest-due tasks, latest first, each due date a `Date` |
| DashboardView.RecentTasksAsWrittenFailsOnStoredTasks | src/app/components/dashboard/dashboard.component.ts:247-253 | two tasks written through `addTask` make the written pipeline fail; the intended one keeps both |
| DashboardView.Unfinished | src/app/components/dashboard/dashboard.component.ts:261 | a goal is kept iff its progress is below 100 |
| DashboardView.UnfinishedDistributes | src/app/components/dashboard/dashboard.component.ts:261 | filtering a concatenation is concatenating the filtered parts |
| DashboardView.ActiveGoals | src/app/components/dashboard/dashboard.component.ts:256-262 | the first min(5, n) of the n converted unfinished goals, in stream order, with no sort; all of them when n is at most five |
| DashboardView.RecentNotes | src/app/components/dashboard/dashboard.component.ts:265-274 | the five newest notes, newest first, each creation time a `Date`; it never fails |
| DashboardView.LoadAsWritten | src/app/components/dashboard/dashboard.component.ts:226-283 | a missing uid, a failed read or a throwing task sort all leave every list unchanged with the error shown; loading always ends |
| DashboardView.Load | src/app/components/dashboard/dashboard.component.ts:226-283 | only a missing uid or a failed read is an error |
| DashboardView.LoadAsWrittenFailsOnStoredTasks | src/app/components/dashboard/dashboard.component.ts:238-274 | with two stored tasks the written load shows nothing new, while the intended one shows both tasks |
| DashboardView.ToggleTask | src/app/components/dashboard/dashboard.component.ts:308-319 | a task whose id is missing or empty is refused before any write; otherwise only that task's `completed` is written, every other document unchanged, and the dashboard reloads iff the write succeeded |
| DashboardView.SignOut | src/app/components/dashboard/dashboard.component.ts:335-341 | a provider failure is shown instead of rethrown; the navigation happens iff sign-out succeeded |
| RegisterView.OnSubmit | src/app/components/register/register.component.ts:122-135 | differing passwords do nothing; otherwise sign-up is requested, and only a success navigates to `/dashboard` |
| RegisterView.RegistrationLandsOnDashboard | src/app/components/register/register.component.ts:129-130 | the page a registration lands on is shown whatever the session holds |

## Left out

- Email sign-in and sign-up (`signInWithEmail`, `signUpWithEmail`) pass the provider's result or error through unchanged. Only their use by the register view is modelled.
- The login and navigation components are not part of this model.
- Device access is not part of this model: camera, microphone, vibration, the recording toggle, `FileReader`. The notes form receives the photo and the recording as given values.
- The PWA and notification services, `app.config.ts` and `app.module.ts` (including whether the start-up check is wired in) are not part of this model.
- Templates and styling are not modelled.
- `onAuthStateChanged`, the popup, the router and the store are not modelled; the values they produce are parameters. The fresh document id is a parameter and a store failure is an optional reason string.
- Date parsing and locale formatting are not modelled. Every instant is integer milliseconds, so conversions are exact. An invalid date (for example a cleared date picker giving `new Date(undefined)`) is not modelled.
- Concurrency is not modelled. The three `firstValueFrom` reads behind `Promise.all` are one `Result` snapshot. Live re-emission of the collection streams is one emission per call.
- The snack bar's duration and style are not modelled.
- JavaScript falsiness is modelled only where the code tests it: empty strings, `null`, and `progress || 0`. `NaN` and non-numeric slider values are not modelled.
- Sorting.SortOrThrow: does not state which order an engine's sort leaves equal keys in, nor which comparison throws first. It states that a sort of two or more elements fails if any element lacks the key.
- TasksView.ToggleTask: does not model that spreading the local task also writes its `id` field into the document; the model keeps the stored document's own `id`.

## Findings

| source | as written | input that shows it | evidently intended | confidence | as-written member | corrected member |
|---|---|---|---|---|---|---|
| src/app/components/tasks/tasks.component.ts:221 | the list is sorted by `dueDate.getTime()`, but `addTask` stores the due date as an ISO string (data.service.ts:53), so a read-back task has no `getTime` and the sort throws | one user with two tasks added through the form | sort by due instant whatever its stored shape | not executed | TasksView.SortAsWrittenFailsOnStoredTasks | TasksView.LoadTasks |
| src/app/components/dashboard/dashboard.component.ts:247-253 | `convertToDate` returns a string unchanged, so `getTime` throws on stored due dates and the whole load fails, goals and notes included | one user with two tasks added through the form | read every due date as a `Date` before sorting, as the notes pipeline does | not executed | DashboardView.LoadAsWrittenFailsOnStoredTasks | DashboardView.Load |
| src/app/components/goals/goals.component.ts:250 | the list is sorted by `targetDate.getTime()`, but the store returns a `Timestamp`, which has no `getTime` | one user with two goals | sort by target instant (`toMillis` for a `Timestamp`) | not executed | GoalsView.SortAsWrittenFailsOnStoredGoals | GoalsView.LoadGoals |
| src/app/guards/auth.guard.ts:12-25 | `filter(user => user !== null)` drops the value that should trigger the redirect, so a signed-out visitor's guarded navigation never completes | the session reports `null`, then `/tasks` is opened | wait only until the provider has answered, then send a signed-out visitor to `/login` with the return URL | not executed | AuthGuard.SignedOutNavigationNeverSettles | AuthGuard.Guard |
| src/app/components/goals/goals.component.ts:287-292 | the form reset sets `progress` to 0 but leaves `progressControl` at its last value, so the slider shows one value and the next goal is written with another | set the slider to 50, add a goal, then add another without touching the slider | reset the slider together with the form | not executed | GoalsView.AddGoalAsWrittenLosesSync | GoalsView.AddGoal |

=== FILE: bootstrap.dfy ===
/** The start-up check: read the current user once, compare with the path
    the browser opened, and issue at most one navigation to reconcile them. */
module Bootstrap {
  import opened Wrappers
  import opened Navigations
  import opened Session
  import Routes

  /** The paths the start-up check treats as protected. */
  const ProtectedPaths: set<string> := {"/tasks", "/goals", "/notes", "/dashboard"}

  /** The sign-in and sign-up paths a signed-in user is sent away from. */
  const EntryPaths: set<string> := {"/login", "/register"}

  /** The decision table of the `try` block, checked in order; the first
      branch that navigates ends the run. */
  function Decide(user: Cell, path: string): (nav: Option<Navigation>)
    ensures nav == Some(LoginReturningTo(path)) <==> user.None? && path in ProtectedPaths
    ensures nav == Some(GoTo(DashboardPath)) <==> user.Some? && (path in EntryPaths || path == "/")
    ensures nav == Some(GoTo(LoginPath)) <==> user.None? && path == "/"
    ensures nav.None? <==> if user.Some? then path !in EntryPaths && path != "/"
                           else path !in ProtectedPaths && path != "/"
  {
    if user.None? && path in ProtectedPaths then Some(LoginReturningTo(path))
    else if user.Some? && path in EntryPaths then Some(GoTo(DashboardPath))
    else if user.Some? && path == "/" then Some(GoTo(DashboardPath))
    else if user.None? && path == "/" then Some(GoTo(LoginPath))
    else None
  }

  /** The table settles in one step: at the path it sends the user to, it
      asks for no further navigation. */
  lemma DecisionSettles(user: Cell, path: string)
    requires Decide(user, path).Some?
    ensures Decide(user, Decide(user, path).value.path) == None
  {
  }

  /** Every page the table sends a user to is a page the router shows
      without its guard. */
  lemma DecisionLandsOnUnguardedPage(user: Cell, path: string)
    requires Decide(user, path).Some?
    ensures var p := Decide(user, path).value.path;
      |p| > 0 && !Routes.Follow(p[1..]).guarded
  {
    var p := Decide(user, path).value.path;
    assert p == LoginPath || p == DashboardPath;
    assert LoginPath[1..] == "login";
    assert DashboardPath[1..] == "dashboard";
    Routes.FollowCharacterised(p[1..]);
  }

  /** `initializeApp` after the provider notifications `ns`: the navigations
      it attempts. When the one the table chose is rejected, the `catch`
      block tries `/login` with a return target, but only from a protected
      path. */
  function Initialize(ns: seq<Cell>, path: string, navigationRejected: bool): (attempts: seq<Navigation>)
    ensures var d := Decide(Current(ns), path);
      && |attempts| <= 2
      && (|attempts| > 0 <==> d.Some?)
      && (|attempts| > 0 ==> attempts[0] == d.value)
      && (|attempts| == 2 <==> d.Some? && navigationRejected && path in ProtectedPaths)
      && (|attempts| == 2 ==> attempts[1] == LoginReturningTo(path))
    ensures !navigationRejected ==> |attempts| <= 1
  {
    GetCurrentUserReadsCell(ns);
    var user := GetCurrentUser(Observed(ns, |ns|));
    match Decide(user, path)
    case None => []
    case Some(nav) =>
      if navigationRejected && path in ProtectedPaths then [nav, LoginReturningTo(path)]
      else [nav]
  }

  /** A signed-out session on a protected path is sent to `/login` with the
      path as its return target; a signed-in one on `/login` goes to the
      dashboard. */
  lemma StartUpScenarios(u: User)
    ensures Initialize([None], "/tasks", false) == [Navigation("/login", Some("/tasks"), false)]
    ensures Initialize([Some(u)], "/login", false) == [Navigation("/dashboard", None, false)]
  {
  }

  /** Because "not yet known" reads as `null`, a check that runs before the
      provider's first notification sends even a user who is about to be
      reported signed in from a protected path to `/login`. */
  lemma ColdStartLooksSignedOut(path: string, u: User)
    requires path in ProtectedPaths
    ensures Initialize([], path, false) == [LoginReturningTo(path)]
    ensures Initialize([Some(u)], path, false) == []
  {
  }
}

=== FILE: dashboard_view.dfy ===
/** The dashboard: one load that reads all three collections once and keeps
    the five latest tasks, the first five unfinished goals and the five
    newest notes; the completion toggle; and sign-out. */
module DashboardView {
  import opened Wrappers
  import opened Times
  import opened Sorting
  import opened Session
  import opened DataService
  import opened Feedback

  /** The first value of each of the three collection streams. */
  datatype Snapshot = Snapshot(tasks: seq<Task>, goals: seq<Goal>, notes: seq<Note>)

  datatype DashboardState = DashboardState(recentTasks: seq<Task>, activeGoals: seq<Goal>, recentNotes: seq<Note>,
                                           isLoading: bool, snack: Snack)

  /** How many items each list keeps. */
  const Shown: nat := 5

  const LoadFailedMessage: string := "Failed to load data"

  // ------------------------------------------------------------------ tasks

  /** The tasks with `convertToDate` applied to each due date. */
  function ConvertTasks(ts: seq<Task>): (r: seq<Task>)
    ensures |r| == |ts|
    ensures forall i :: 0 <= i < |ts| ==> r[i] == ts[i].(dueDate := ConvertToDate(Some(ts[i].dueDate)))
  {
    seq(|ts|, i requires 0 <= i < |ts| => ts[i].(dueDate := ConvertToDate(Some(ts[i].dueDate))))
  }

  /** Cutting a newest-first list of the converted tasks to its first
      `Shown` keeps it newest-first and keeps the newest ones. */
  lemma {:induction false} FirstShownOfSorted(c: seq<Task>, s: seq<Task>)
    requires multiset(s) == multiset(c)
    requires |c| < 2 ==> s == c
    requires |c| >= 2 ==> forall i, j :: 0 <= i < j < |s| ==> ToMs(s[i].dueDate) >= ToMs(s[j].dueDate)
    ensures var r := Take(s, Shown);
      && multiset(r) <= multiset(c)
      && (forall i, j :: 0 <= i < j < |r| ==> ToMs(r[i].dueDate) >= ToMs(r[j].dueDate))
      && (forall y | y in multiset(c) - multiset(r) :: forall i | 0 <= i < |r| :: ToMs(r[i].dueDate) >= ToMs(y.dueDate))
  {
    var r := Take(s, Shown);
    var ms := (t: Task) => ToMs(t.dueDate);
    assert Descending(s, ms);
    PrefixKeepsOrder(s, r, ms);
    TakeOfDescendingKeepsLargest(s, ms, Shown);
    assert s == r + s[|r|..];
    assert multiset(s) == multiset(r) + multiset(s[|r|..]);
  }

  /** After the conversion only a due date that was an ISO string lacks
      `getTime`, so only such a date makes the sort throw. */
  lemma {:induction false} ConvertedSortFails(ts: seq<Task>, key: Task -> Option<int>)
    requires forall t :: key(t) == GetTime(t.dueDate)
    ensures SortOrThrow(ConvertTasks(ts), key, true).None? <==> |ts| >= 2 && exists i :: 0 <= i < |ts| && ts[i].dueDate.Iso?
  {
    var c := ConvertTasks(ts);
    assert forall i :: 0 <= i < |c| ==> (key(c[i]).None? <==> ts[i].dueDate.Iso?);
  }

  /** The same for the list the newest-first sort by `getTime` returned. */
  lemma {:induction false} FirstShownOfSortResult(c: seq<Task>, s: seq<Task>, key: Task -> Option<int>)
    requires forall t :: key(t) == GetTime(t.dueDate)
    requires SortOrThrow(c, key, true) == Some(s)
    ensures var r := Take(s, Shown);
      && multiset(r) <= multiset(c)
      && (forall i, j :: 0 <= i < j < |r| ==> ToMs(r[i].dueDate) >= ToMs(r[j].dueDate))
      && (forall y | y in multiset(c) - multiset(r) :: forall i | 0 <= i < |r| :: ToMs(r[i].dueDate) >= ToMs(y.dueDate))
  {
    assert |c| >= 2 ==> forall i, j :: 0 <= i < j < |s| ==> ToMs(s[i].dueDate) >= ToMs(s[j].dueDate);
    FirstShownOfSorted(c, s);
  }

  /** The recent-tasks pipeline as written: convert, sort newest first by
      `getTime`, keep five. A string due date survives the conversion, so
      with two or more tasks one such date makes the sort throw. */
  function RecentTasksAsWritten(ts: seq<Task>): (r: Option<seq<Task>>)
    ensures r.None? <==> |ts| >= 2 && exists i :: 0 <= i < |ts| && ts[i].dueDate.Iso?
    ensures r.Some? ==> |r.value| == if |ts| <= Shown then |ts| else Shown
    ensures r.Some? ==> multiset(r.value) <= multiset(ConvertTasks(ts))
    ensures r.Some? ==> forall i, j :: 0 <= i < j < |r.value| ==> ToMs(r.value[i].dueDate) >= ToMs(r.value[j].dueDate)
    ensures r.Some? ==> forall y | y in multiset(ConvertTasks(ts)) - multiset(r.value) ::
      forall i | 0 <= i < |r.value| :: ToMs(r.value[i].dueDate) >= ToMs(y.dueDate)
  {
    var c := ConvertTasks(ts);
    var key := (t: Task) => GetTime(t.dueDate);
    ConvertedSortFails(ts, key);
    match SortOrThrow(c, key, true)
    case None => None
    case Some(s) =>
      FirstShownOfSortResult(c, s, key);
      Some(Take(s, Shown))
  }

  /** The tasks with every due date read as a `Date`, whatever shape the
      store returned. */
  function NormaliseTasks(ts: seq<Task>): (r: seq<Task>)
    ensures |r| == |ts|
    ensures forall i :: 0 <= i < |ts| ==> r[i] == ts[i].(dueDate := ToDate(ts[i].dueDate))
  {
    seq(|ts|, i requires 0 <= i < |ts| => ts[i].(dueDate := ToDate(ts[i].dueDate)))
  }

  /** The recent tasks as intended: the five latest due, latest first, each
      due date a `Date`. */
  function RecentTasks(ts: seq<Task>): (r: seq<Task>)
    ensures |r| == if |ts| <= Shown then |ts| else Shown
    ensures forall i :: 0 <= i < |r| ==> r[i].dueDate.Native?
    ensures forall i, j :: 0 <= i < j < |r| ==> ToMs(r[i].dueDate) >= ToMs(r[j].dueDate)
    ensures multiset(r) <= multiset(NormaliseTasks(ts))
    ensures forall y | y in multiset(NormaliseTasks(ts)) - multiset(r) ::
      forall i | 0 <= i < |r| :: ToMs(r[i].dueDate) >= ToMs(y.dueDate)
  {
    var n := NormaliseTasks(ts);
    var key := (t: Task) => ToMs(t.dueDate);
    var r := TopByKey(n, key, Shown);
    assert Descending(r, key);
    forall i | 0 <= i < |r|
      ensures r[i].dueDate.Native?
    {
      assert r[i] in multiset(n);
    }
    r
  }

  /** Two tasks written through `addTask` come back with string due dates,
      so the written pipeline fails on them while the intended one keeps
      both. */
  lemma RecentTasksAsWrittenFailsOnStoredTasks(db: Db, t1: Task, t2: Task, id1: string, id2: string)
    requires t1.dueDate.Native? && t2.dueDate.Native? && t1.userId == t2.userId
    requires id1 != id2 && id1 !in db.tasks && id2 !in db.tasks
    ensures DataService.AddTask(db, t1, id1, None).Ok?
    ensures var db1 := DataService.AddTask(db, t1, id1, None).value.0;
      DataService.AddTask(db1, t2, id2, None).Ok? &&
      var db2 := DataService.AddTask(db1, t2, id2, None).value.0;
      var view := GetTasks(db2, t1.userId);
      id1 in view && id2 in view &&
      RecentTasksAsWritten([view[id1], view[id2]]).None? &&
      |RecentTasks([view[id1], view[id2]])| == 2
  {
    var db1 := DataService.AddTask(db, t1, id1, None).value.0;
    var db2 := DataService.AddTask(db1, t2, id2, None).value.0;
    var view := GetTasks(db2, t1.userId);
    assert view[id1].dueDate.Iso?;
    assert [view[id1], view[id2]][0].dueDate.Iso?;
  }

  // ------------------------------------------------------------------ goals

  function ConvertGoal(g: Goal): Goal {
    g.(targetDate := ConvertToDate(Some(g.targetDate)))
  }

  function ConvertGoals(gs: seq<Goal>): (r: seq<Goal>)
    ensures |r| == |gs|
    ensures forall i :: 0 <= i < |gs| ==> r[i] == ConvertGoal(gs[i])
  {
    seq(|gs|, i requires 0 <= i < |gs| => ConvertGoal(gs[i]))
  }

  /** The `progress < 100` filter, keeping the store's order. */
  function Unfinished(gs: seq<Goal>): (r: seq<Goal>)
    ensures forall g :: g in r <==> g in gs && g.progress < 100
    ensures |r| <= |gs|
  {
    if gs == [] then []
    else if gs[0].progress < 100 then [gs[0]] + Unfinished(gs[1..])
    else Unfinished(gs[1..])
  }

  /** The filter works element by element: filtering a concatenation is
      concatenating the filtered parts. */
  lemma {:induction false} UnfinishedDistributes(a: seq<Goal>, b: seq<Goal>)
    ensures Unfinished(a + b) == Unfinished(a) + Unfinished(b)
  {
    if a == [] {
      assert a + b == b;
    } else {
      assert (a + b)[1..] == a[1..] + b;
      UnfinishedDistributes(a[1..], b);
    }
  }

  /** The active goals: the first five unfinished goals in the store's
      order, with their target dates converted; there is no sort. */
  function ActiveGoals(gs: seq<Goal>): (r: seq<Goal>)
    ensures |r| <= Shown
    ensures var u := Unfinished(ConvertGoals(gs));
      |r| == (if |u| <= Shown then |u| else Shown) && r == u[..|r|]
    ensures forall i :: 0 <= i < |r| ==> r[i].progress < 100
    ensures forall i :: 0 <= i < |r| ==> exists j :: 0 <= j < |gs| && r[i] == ConvertGoal(gs[j])
    ensures |Unfinished(ConvertGoals(gs))| <= Shown ==> forall j :: 0 <= j < |gs| && gs[j].progress < 100 ==> ConvertGoal(gs[j]) in r
  {
    var u := Unfinished(ConvertGoals(gs));
    var r := Take(u, Shown);
    forall i | 0 <= i < |r|
      ensures r[i].progress < 100 && exists j :: 0 <= j < |gs| && r[i] == ConvertGoal(gs[j])
    {
      assert r[i] in u;
    }
    forall j | 0 <= j < |gs| && gs[j].progress < 100 && |u| <= Shown
      ensures ConvertGoal(gs[j]) in r
    {
      assert ConvertGoals(gs)[j] == ConvertGoal(gs[j]);
    }
    r
  }

  // ------------------------------------------------------------------ notes

  /** The notes with every creation time read as a `Date`: a `Timestamp`
      through `toDate`, anything else through `new Date(...)`. */
  function NormaliseNotes(ns: seq<Note>): (r: seq<Note>)
    ensures |r| == |ns|
    ensures forall i :: 0 <= i < |ns| ==> r[i] == ns[i].(createdAt := ToDate(ns[i].createdAt))
  {
    seq(|ns|, i requires 0 <= i < |ns| => ns[i].(createdAt := ToDate(ns[i].createdAt)))
  }

  /** The recent notes: the five newest, newest first; this pipeline never
      throws. */
  function RecentNotes(ns: seq<Note>): (r: seq<Note>)
    ensures |r| == if |ns| <= Shown then |ns| else Shown
    ensures forall i :: 0 <= i < |r| ==> r[i].createdAt.Native?
    ensures forall i, j :: 0 <= i < j < |r| ==> ToMs(r[i].createdAt) >= ToMs(r[j].createdAt)
    ensures multiset(r) <= multiset(NormaliseNotes(ns))
    ensures forall y | y in multiset(NormaliseNotes(ns)) - multiset(r) ::
      forall i | 0 <= i < |r| :: ToMs(r[i].createdAt) >= ToMs(y.createdAt)
  {
    var n := NormaliseNotes(ns);
    var key := (x: Note) => ToMs(x.createdAt);
    var r := TopByKey(n, key, Shown);
    assert Descending(r, key);
    forall i | 0 <= i < |r|
      ensures r[i].createdAt.Native?
    {
      assert r[i] in multiset(n);
    }
    r
  }

  // ------------------------------------------------------------------ load

  /** `user?.uid` is truthy. */
  predicate HasUid(user: Cell) {
    user.Some? && user.value.uid != ""
  }

  /** The state after a failed load: the lists as they were, an error
      shown. */
  function Failed(prev: DashboardState): DashboardState {
    prev.(isLoading := false, snack := ErrorSnack(LoadFailedMessage))
  }

  /** `loadData` as written: no signed-in uid, a failed read, or a throwing
      task sort all end in the same error, with all three lists left as they
      were. */
  function LoadAsWritten(prev: DashboardState, user: Cell, fetched: Result<Snapshot, string>): (r: DashboardState)
    ensures !r.isLoading
    ensures r == Failed(prev) <==> (!HasUid(user) || fetched.Err? || RecentTasksAsWritten(fetched.value.tasks).None?)
    ensures r != Failed(prev) ==> (
      && r.snack == NoSnack
      && r.recentTasks == RecentTasksAsWritten(fetched.value.tasks).value
      && r.activeGoals == ActiveGoals(fetched.value.goals)
      && r.recentNotes == RecentNotes(fetched.value.notes))
  {
    if !HasUid(user) || fetched.Err? then Failed(prev)
    else
      match RecentTasksAsWritten(fetched.value.tasks)
      case None => Failed(prev)
      case Some(rt) =>
        DashboardState(rt, ActiveGoals(fetched.value.goals), RecentNotes(fetched.value.notes), false, NoSnack)
  }

  /** `loadData` with the intended task pipeline: only a missing uid or a
      failed read is an error. */
  function Load(prev: DashboardState, user: Cell, fetched: Result<Snapshot, string>): (r: DashboardState)
    ensures !r.isLoading
    ensures r == Failed(prev) <==> (!HasUid(user) || fetched.Err?)
    ensures r != Failed(prev) ==> (
      && r.snack == NoSnack
      && r.recentTasks == RecentTasks(fetched.value.tasks)
      && r.activeGoals == ActiveGoals(fetched.value.goals)
      && r.recentNotes == RecentNotes(fetched.value.notes))
  {
    if !HasUid(user) || fetched.Err? then Failed(prev)
    else
      DashboardState(RecentTasks(fetched.value.tasks), ActiveGoals(fetched.value.goals),
                     RecentNotes(fetched.value.notes), false, NoSnack)
  }

  /** Once a user has two stored tasks the written load shows nothing new,
      not even the goals and notes that read fine, while the intended load
      shows both tasks. */
  lemma LoadAsWrittenFailsOnStoredTasks(prev: DashboardState, u: User, db: Db, t1: Task, t2: Task,
                                        id1: string, id2: string, goals: seq<Goal>, notes: seq<Note>)
    requires u.uid != "" && t1.userId == u.uid && t2.userId == u.uid
    requires t1.dueDate.Native? && t2.dueDate.Native?
    requires id1 != id2 && id1 !in db.tasks && id2 !in db.tasks
    ensures DataService.AddTask(db, t1, id1, None).Ok?
    ensures var db1 := DataService.AddTask(db, t1, id1, None).value.0;
      DataService.AddTask(db1, t2, id2, None).Ok? &&
      var db2 := DataService.AddTask(db1, t2, id2, None).value.0;
      var view := GetTasks(db2, u.uid);
      id1 in view && id2 in view &&
      var snap := Snapshot([view[id1], view[id2]], goals, notes);
      LoadAsWritten(prev, Some(u), Ok(snap)) == Failed(prev) &&
      |Load(prev, Some(u), Ok(snap)).recentTasks| == 2
  {
    RecentTasksAsWrittenFailsOnStoredTasks(db, t1, t2, id1, id2);
  }

  // ------------------------------------------------------------------ actions

  const UpdatedMessage: string := "Task updated successfully"
  const UpdateFailedMessage: string := "Failed to update task"

  /** What the toggle leaves behind; `reloads` says whether `loadData` runs
      again. */
  datatype ToggleOutcome = ToggleOutcome(db: Db, snack: Snack, reloads: bool)

  /** `toggleTask`: a task without an id, or with the empty string as its
      id (falsy), is refused before any write;
      otherwise only `completed` is written, as the negation of the value
      the dashboard holds, and the dashboard reloads on success. */
  function ToggleTask(task: Task, db: Db, fault: Option<string>): (r: ToggleOutcome)
    ensures r.reloads <==> task.id.Some? && task.id.value != "" && fault.None? && task.id.value in db.tasks
    ensures r.reloads ==> (
      && r.snack == SuccessSnack(UpdatedMessage)
      && r.db.tasks.Keys == db.tasks.Keys
      && r.db.tasks[task.id.value] == db.tasks[task.id.value].(completed := !task.completed)
      && (forall k :: k in db.tasks && k != task.id.value ==> r.db.tasks[k] == db.tasks[k])
      && r.db.goals == db.goals && r.db.notes == db.notes)
    ensures !r.reloads ==> r == ToggleOutcome(db, ErrorSnack(UpdateFailedMessage), false)
  {
    match task.id
    case None => ToggleOutcome(db, ErrorSnack(UpdateFailedMessage), false)
    case Some(id) =>
      if id == "" then ToggleOutcome(db, ErrorSnack(UpdateFailedMessage), false)
      else
        match UpdateTask(db, id, TaskPatch(None, None, None, Some(!task.completed), None), fault)
        case Ok(db') => ToggleOutcome(db', SuccessSnack(UpdatedMessage), true)
        case Err(_) => ToggleOutcome(db, ErrorSnack(UpdateFailedMessage), false)
  }

  const SignOutFailedMessage: string := "Failed to sign out"

  /** The dashboard's sign-out button: the session's sign-out, with a
      provider failure shown instead of rethrown. */
  function SignOut(provider: Option<string>): (r: (seq<Step>, Snack))
    ensures r.1 == ErrorSnack(SignOutFailedMessage) <==> provider.Some?
    ensures r.1 != ErrorSnack(SignOutFailedMessage) ==> r.1 == NoSnack
    ensures (exists i :: 0 <= i < |r.0| && r.0[i].Navigate?) <==> provider.None?
  {
    var (steps, failure) := Session.SignOut(provider);
    assert provider.None? ==> steps[1].Navigate?;
    (steps, if failure.Some? then ErrorSnack(SignOutFailedMessage) else NoSnack)
  }
}

=== FILE: data_service.dfy ===
/** The record types and the per-collection operations over the document
    store. The store is three maps from document id to document; a failed
    write is a `Failure` and leaves the store as it was. */
module DataService {
  import opened Wrappers
  import opened Times

  datatype Task = Task(id: Option<string>, title: string, description: string,
                       dueDate: Time, completed: bool, userId: string)

  datatype Goal = Goal(id: Option<string>, title: string, description: string,
                       targetDate: Time, progress: int, userId: string)

  /** A note's kind: the string union `'text' | 'photo' | 'audio'`. */
  datatype NoteType = Text | Photo | Audio

  datatype Note = Note(id: Option<string>, title: string, content: string, noteType: NoteType,
                       photoUrl: Option<string>, audioData: Option<string>,
                       createdAt: Time, userId: string)

  /** The three collections `tasks`, `goals` and `notes`. */
  datatype Db = Db(tasks: map<string, Task>, goals: map<string, Goal>, notes: map<string, Note>)

  /** Why a store call failed: the store refused the write (permissions,
      offline, ...), `updateDoc` found no document at the path, or the
      caller's value lacked a method it called. */
  datatype Failure = Rejected(reason: string) | NotFound(path: string) | TypeError(message: string)

  // ------------------------------------------------------- document store

  /** A live query with an equality filter, emitting documents with their
      key injected as `id`. */
  function Where<D>(c: map<string, D>, keep: D -> bool, withId: (D, string) -> D): (r: map<string, D>)
    ensures r.Keys == set k | k in c && keep(c[k])
    ensures forall k :: k in r ==> r[k] == withId(c[k], k)
  {
    map k | k in c && keep(c[k]) :: withId(c[k], k)
  }

  /** `addDoc` under the fresh key `id`. */
  function Insert<D>(c: map<string, D>, id: string, d: D, fault: Option<string>): (r: Result<map<string, D>, Failure>)
    requires id !in c
    ensures r.Ok? <==> fault.None?
    ensures r.Err? ==> r.error == Rejected(fault.value)
    ensures r.Ok? ==> r.value.Keys == c.Keys + {id} && r.value[id] == d
    ensures r.Ok? ==> forall k :: k in c ==> r.value[k] == c[k]
  {
    if fault.Some? then Err(Rejected(fault.value)) else Ok(c[id := d])
  }

  /** `updateDoc` of the document `id` at `path`: fails when no document is there;
      otherwise only that document changes. */
  function Modify<D>(c: map<string, D>, path: string, id: string, f: D -> D, fault: Option<string>)
    : (r: Result<map<string, D>, Failure>)
    ensures r.Ok? <==> fault.None? && id in c
    ensures fault.Some? ==> r == Err(Rejected(fault.value))
    ensures fault.None? && id !in c ==> r == Err(NotFound(path))
    ensures r.Ok? ==> r.value.Keys == c.Keys && r.value[id] == f(c[id])
    ensures r.Ok? ==> forall k :: k in c && k != id ==> r.value[k] == c[k]
  {
    if fault.Some? then Err(Rejected(fault.value))
    else if id !in c then Err(NotFound(path))
    else Ok(c[id := f(c[id])])
  }

  /** `deleteDoc`: removes the document if it is there; deleting a missing
      document succeeds. */
  function Remove<D>(c: map<string, D>, id: string, fault: Option<string>): (r: Result<map<string, D>, Failure>)
    ensures r.Ok? <==> fault.None?
    ensures r.Err? ==> r.error == Rejected(fault.value)
    ensures r.Ok? ==> r.value.Keys == c.Keys - {id}
    ensures r.Ok? ==> forall k :: k in r.value ==> r.value[k] == c[k]
  {
    if fault.Some? then Err(Rejected(fault.value)) else Ok(c - {id})
  }

  /** The document path segment a TypeScript `id!` yields: a missing id is
      interpolated as the text `undefined`. */
  function IdOrUndefined(id: Option<string>): string {
    id.GetOr("undefined")
  }

  // ------------------------------------------------------------------ tasks

  /** The fields an update of a task may carry (`Partial<Task>`). */
  datatype TaskPatch = TaskPatch(title: Option<string>, description: Option<string>, dueDate: Option<Time>,
                                 completed: Option<bool>, userId: Option<string>)

  /** A task as the store keeps it: a `Date` is written as a `Timestamp`. */
  function StoredTask(t: Task): Task {
    t.(dueDate := StoreEncode(t.dueDate))
  }

  /** Merging a patch: the supplied fields take the new values, the others
      keep theirs; merging the same patch again changes nothing more. */
  function ApplyTaskPatch(t: Task, p: TaskPatch): (r: Task)
    ensures r.id == t.id
    ensures p.title.None? ==> r.title == t.title
    ensures p.description.None? ==> r.description == t.description
    ensures p.dueDate.None? ==> r.dueDate == t.dueDate
    ensures p.dueDate.Some? ==> ToMs(r.dueDate) == ToMs(p.dueDate.value)
    ensures p.completed.None? ==> r.completed == t.completed
    ensures p.userId.None? ==> r.userId == t.userId
    ensures p.title.Some? ==> r.title == p.title.value
    ensures p.description.Some? ==> r.description == p.description.value
    ensures p.completed.Some? ==> r.completed == p.completed.value
    ensures p.userId.Some? ==> r.userId == p.userId.value
  {
    Task(t.id, p.title.GetOr(t.title), p.description.GetOr(t.description),
         if p.dueDate.Some? then StoreEncode(p.dueDate.value) else t.dueDate,
         p.completed.GetOr(t.completed), p.userId.GetOr(t.userId))
  }

  /** `getTasks`: the tasks owned by `uid`, each with `id` set to its key and
      nothing else changed. */
  function GetTasks(db: Db, uid: string): (r: map<string, Task>)
    ensures forall k :: k in r <==> k in db.tasks && db.tasks[k].userId == uid
    ensures forall k :: k in r ==> r[k].id == Some(k) && r[k].(id := db.tasks[k].id) == db.tasks[k]
  {
    Where(db.tasks, (t: Task) => t.userId == uid, (t: Task, k: string) => t.(id := Some(k)))
  }

  /** `addTask`: stores the task with `dueDate` replaced by its ISO string;
      calling `toISOString` on a due date that is not a `Date` throws, and a
      refused write is rethrown. */
  function AddTask(db: Db, task: Task, newId: string, fault: Option<string>): (r: Result<(Db, string), Failure>)
    requires newId !in db.tasks
    ensures r.Ok? <==> task.dueDate.Native? && fault.None?
    ensures !task.dueDate.Native? ==> r.Err? && r.error.TypeError?
    ensures task.dueDate.Native? && fault.Some? ==> r == Err(Rejected(fault.value))
    ensures r.Ok? ==> var (db', id) := r.value;
      && id == newId
      && db'.tasks.Keys == db.tasks.Keys + {newId}
      && db'.tasks[newId] == task.(dueDate := Iso(ToMs(task.dueDate)))
      && (forall k :: k in db.tasks ==> db'.tasks[k] == db.tasks[k])
      && db'.goals == db.goals && db'.notes == db.notes
  {
    match ToIsoString(task.dueDate)
    case None => Err(TypeError("task.dueDate.toISOString is not a function"))
    case Some(iso) =>
      match Insert(db.tasks, newId, StoredTask(task.(dueDate := iso)), fault)
      case Err(e) => Err(e)
      case Ok(tasks) => Ok((db.(tasks := tasks), newId))
  }

  /** `updateTask`: merges the patch into `tasks/<taskId>` and nothing else. */
  function UpdateTask(db: Db, taskId: string, patch: TaskPatch, fault: Option<string>): (r: Result<Db, Failure>)
    ensures r.Ok? <==> fault.None? && taskId in db.tasks
    ensures fault.None? && taskId !in db.tasks ==> r == Err(NotFound("tasks/" + taskId))
    ensures r.Ok? ==> (r.value.tasks.Keys == db.tasks.Keys
      && r.value.tasks[taskId] == ApplyTaskPatch(db.tasks[taskId], patch)
      && (forall k :: k in db.tasks && k != taskId ==> r.value.tasks[k] == db.tasks[k])
      && r.value.goals == db.goals && r.value.notes == db.notes)
  {
    match Modify(db.tasks, "tasks/" + taskId, taskId, (t: Task) => ApplyTaskPatch(t, patch), fault)
    case Err(e) => Err(e)
    case Ok(tasks) => Ok(db.(tasks := tasks))
  }

  /** `deleteTask`: removes `tasks/<taskId>` only. */
  function DeleteTask(db: Db, taskId: string, fault: Option<string>): (r: Result<Db, Failure>)
    ensures r.Ok? <==> fault.None?
    ensures r.Ok? ==> (r.value.tasks.Keys == db.tasks.Keys - {taskId}
      && (forall k :: k in r.value.tasks ==> r.value.tasks[k] == db.tasks[k])
      && r.value.goals == db.goals && r.value.notes == db.notes)
  {
    match Remove(db.tasks, taskId, fault)
    case Err(e) => Err(e)
    case Ok(tasks) => Ok(db.(tasks := tasks))
  }

  // ------------------------------------------------------------------ goals

  datatype GoalPatch = GoalPatch(title: Option<string>, description: Option<string>, targetDate: Option<Time>,
                                 progress: Option<int>, userId: Option<string>)

  function StoredGoal(g: Goal): Goal {
    g.(targetDate := StoreEncode(g.targetDate))
  }

  /** Merging a goal patch; `progress` is taken as given, with no range
      check. */
  function ApplyGoalPatch(g: Goal, p: GoalPatch): (r: Goal)
    ensures r.id == g.id
    ensures p.title.None? ==> r.title == g.title
    ensures p.description.None? ==> r.description == g.description
    ensures p.targetDate.None? ==> r.targetDate == g.targetDate
    ensures p.targetDate.Some? ==> ToMs(r.targetDate) == ToMs(p.targetDate.value)
    ensures p.progress.None? ==> r.progress == g.progress
    ensures p.progress.Some? ==> r.progress == p.progress.value
    ensures p.userId.None? ==> r.userId == g.userId
    ensures p.title.Some? ==> r.title == p.title.value
    ensures p.description.Some? ==> r.description == p.description.value
    ensures p.userId.Some? ==> r.userId == p.userId.value
  {
    Goal(g.id, p.title.GetOr(g.title), p.description.GetOr(g.description),
         if p.targetDate.Some? then StoreEncode(p.targetDate.value) else g.targetDate,
         p.progress.GetOr(g.progress), p.userId.GetOr(g.userId))
  }

  function GetGoals(db: Db, uid: string): (r: map<string, Goal>)
    ensures forall k :: k in r <==> k in db.goals && db.goals[k].userId == uid
    ensures forall k :: k in r ==> r[k].id == Some(k) && r[k].(id := db.goals[k].id) == db.goals[k]
  {
    Where(db.goals, (g: Goal) => g.userId == uid, (g: Goal, k: string) => g.(id := Some(k)))
  }

  /** `addGoal`: stores the goal as given (its `Date` becoming a stored
      `Timestamp`). */
  function AddGoal(db: Db, goal: Goal, newId: string, fault: Option<string>): (r: Result<(Db, string), Failure>)
    requires newId !in db.goals
    ensures r.Ok? <==> fault.None?
    ensures r.Err? ==> r.error == Rejected(fault.value)
    ensures r.Ok? ==> var (db', id) := r.value;
      && id == newId
      && db'.goals.Keys == db.goals.Keys + {newId}
      && db'.goals[newId] == goal.(targetDate := StoreEncode(goal.targetDate))
      && (forall k :: k in db.goals ==> db'.goals[k] == db.goals[k])
      && db'.tasks == db.tasks && db'.notes == db.notes
  {
    match Insert(db.goals, newId, StoredGoal(goal), fault)
    case Err(e) => Err(e)
    case Ok(goals) => Ok((db.(goals := goals), newId))
  }

  function UpdateGoal(db: Db, goalId: string, patch: GoalPatch, fault: Option<string>): (r: Result<Db, Failure>)
    ensures r.Ok? <==> fault.None? && goalId in db.goals
    ensures fault.None? && goalId !in db.goals ==> r == Err(NotFound("goals/" + goalId))
    ensures r.Ok? ==> (r.value.goals.Keys == db.goals.Keys
      && r.value.goals[goalId] == ApplyGoalPatch(db.goals[goalId], patch)
      && (forall k :: k in db.goals && k != goalId ==> r.value.goals[k] == db.goals[k])
      && r.value.tasks == db.tasks && r.value.notes == db.notes)
  {
    match Modify(db.goals, "goals/" + goalId, goalId, (g: Goal) => ApplyGoalPatch(g, patch), fault)
    case Err(e) => Err(e)
    case Ok(goals) => Ok(db.(goals := goals))
  }

  function DeleteGoal(db: Db, goalId: string, fault: Option<string>): (r: Result<Db, Failure>)
    ensures r.Ok? <==> fault.None?
    ensures r.Ok? ==> (r.value.goals.Keys == db.goals.Keys - {goalId}
      && (forall k :: k in r.value.goals ==> r.value.goals[k] == db.goals[k])
      && r.value.tasks == db.tasks && r.value.notes == db.notes)
  {
    match Remove(db.goals, goalId, fault)
    case Err(e) => Err(e)
    case Ok(goals) => Ok(db.(goals := goals))
  }

  // ------------------------------------------------------------------ notes

  datatype NotePatch = NotePatch(title: Option<string>, content: Option<string>, noteType: Option<NoteType>,
                                 photoUrl: Option<string>, audioData: Option<string>,
                                 createdAt: Option<Time>, userId: Option<string>)

  function StoredNote(n: Note): Note {
    n.(createdAt := StoreEncode(n.createdAt))
  }

  function ApplyNotePatch(n: Note, p: NotePatch): (r: Note)
    ensures r.id == n.id
    ensures p.title.None? ==> r.title == n.title
    ensures p.content.None? ==> r.content == n.content
    ensures p.noteType.None? ==> r.noteType == n.noteType
    ensures p.photoUrl.None? ==> r.photoUrl == n.photoUrl
    ensures p.audioData.None? ==> r.audioData == n.audioData
    ensures p.createdAt.None? ==> r.createdAt == n.createdAt
    ensures p.createdAt.Some? ==> ToMs(r.createdAt) == ToMs(p.createdAt.value)
    ensures p.userId.None? ==> r.userId == n.userId
    ensures p.title.Some? ==> r.title == p.title.value
    ensures p.content.Some? ==> r.content == p.content.value
    ensures p.noteType.Some? ==> r.noteType == p.noteType.value
    ensures p.photoUrl.Some? ==> r.photoUrl == p.photoUrl
    ensures p.audioData.Some? ==> r.audioData == p.audioData
    ensures p.userId.Some? ==> r.userId == p.userId.value
  {
    Note(n.id, p.title.GetOr(n.title), p.content.GetOr(n.content), p.noteType.GetOr(n.noteType),
         if p.photoUrl.Some? then p.photoUrl else n.photoUrl,
         if p.audioData.Some? then p.audioData else n.audioData,
         if p.createdAt.Some? then StoreEncode(p.createdAt.value) else n.createdAt,
         p.userId.GetOr(n.userId))
  }

  function GetNotes(db: Db, uid: string): (r: map<string, Note>)
    ensures forall k :: k in r <==> k in db.notes && db.notes[k].userId == uid
    ensures forall k :: k in r ==> r[k].id == Some(k) && r[k].(id := db.notes[k].id) == db.notes[k]
  {
    Where(db.notes, (n: Note) => n.userId == uid, (n: Note, k: string) => n.(id := Some(k)))
  }

  function AddNote(db: Db, note: Note, newId: string, fault: Option<string>): (r: Result<(Db, string), Failure>)
    requires newId !in db.notes
    ensures r.Ok? <==> fault.None?
    ensures r.Err? ==> r.error == Rejected(fault.value)
    ensures r.Ok? ==> var (db', id) := r.value;
      && id == newId
      && db'.notes.Keys == db.notes.Keys + {newId}
      && db'.notes[newId] == note.(createdAt := StoreEncode(note.createdAt))
      && (forall k :: k in db.notes ==> db'.notes[k] == db.notes[k])
      && db'.tasks == db.tasks && db'.goals == db.goals
  {
    match Insert(db.notes, newId, StoredNote(note), fault)
    case Err(e) => Err(e)
    case Ok(notes) => Ok((db.(notes := notes), newId))
  }

  function UpdateNote(db: Db, noteId: string, patch: NotePatch, fault: Option<string>): (r: Result<Db, Failure>)
    ensures r.Ok? <==> fault.None? && noteId in db.notes
    ensures fault.None? && noteId !in db.notes ==> r == Err(NotFound("notes/" + noteId))
    ensures r.Ok? ==> (r.value.notes.Keys == db.notes.Keys
      && r.value.notes[noteId] == ApplyNotePatch(db.notes[noteId], patch)
      && (forall k :: k in db.notes && k != noteId ==> r.value.notes[k] == db.notes[k])
      && r.value.tasks == db.tasks && r.value.goals == db.goals)
  {
    match Modify(db.notes, "notes/" + noteId, noteId, (n: Note) => ApplyNotePatch(n, patch), fault)
    case Err(e) => Err(e)
    case Ok(notes) => Ok(db.(notes := notes))
  }

  function DeleteNote(db: Db, noteId: string, fault: Option<string>): (r: Result<Db, Failure>)
    ensures r.Ok? <==> fault.None?
    ensures r.Ok? ==> (r.value.notes.Keys == db.notes.Keys - {noteId}
      && (forall k :: k in r.value.notes ==> r.value.notes[k] == db.notes[k])
      && r.value.tasks == db.tasks && r.value.goals == db.goals)
  {
    match Remove(db.notes, noteId, fault)
    case Err(e) => Err(e)
    case Ok(notes) => Ok(db.(notes := notes))
  }

  // ------------------------------------------------- reading back writes

  /** Merging a patch twice is merging it once. */
  lemma PatchesAreIdempotent(t: Task, tp: TaskPatch, g: Goal, gp: GoalPatch, n: Note, np: NotePatch)
    ensures ApplyTaskPatch(ApplyTaskPatch(t, tp), tp) == ApplyTaskPatch(t, tp)
    ensures ApplyGoalPatch(ApplyGoalPatch(g, gp), gp) == ApplyGoalPatch(g, gp)
    ensures ApplyNotePatch(ApplyNotePatch(n, np), np) == ApplyNotePatch(n, np)
  {
  }

  /** A task written by `addTask` is read back by its owner under the new id
      with the same fields and the same due instant, now as an ISO string;
      every other user's view is unchanged. */
  lemma AddTaskThenGet(db: Db, task: Task, newId: string, other: string)
    requires newId !in db.tasks && task.dueDate.Native?
    requires other != task.userId
    ensures AddTask(db, task, newId, None).Ok?
    ensures var db' := AddTask(db, task, newId, None).value.0;
      && newId in GetTasks(db', task.userId)
      && GetTasks(db', task.userId)[newId] == task.(id := Some(newId), dueDate := Iso(ToMs(task.dueDate)))
      && ToMs(GetTasks(db', task.userId)[newId].dueDate) == ToMs(task.dueDate)
      && GetTasks(db', other) == GetTasks(db, other)
  {
    var db' := AddTask(db, task, newId, None).value.0;
    assert GetTasks(db', other).Keys == GetTasks(db, other).Keys;
  }

  /** A goal written by `addGoal` is read back as given, its target instant
      unchanged and its progress not clamped. */
  lemma AddGoalThenGet(db: Db, goal: Goal, newId: string, other: string)
    requires newId !in db.goals
    requires other != goal.userId
    ensures AddGoal(db, goal, newId, None).Ok?
    ensures var db' := AddGoal(db, goal, newId, None).value.0;
      && newId in GetGoals(db', goal.userId)
      && GetGoals(db', goal.userId)[newId] == goal.(id := Some(newId), targetDate := StoreEncode(goal.targetDate))
      && GetGoals(db', goal.userId)[newId].progress == goal.progress
      && ToMs(GetGoals(db', goal.userId)[newId].targetDate) == ToMs(goal.targetDate)
      && GetGoals(db', other) == GetGoals(db, other)
  {
    var db' := AddGoal(db, goal, newId, None).value.0;
    assert GetGoals(db', other).Keys == GetGoals(db, other).Keys;
  }

  /** A note written by `addNote` is read back by its owner with its content
      and kind; no other user ever sees it. */
  lemma AddNoteThenGet(db: Db, note: Note, newId: string, other: string)
    requires newId !in db.notes
    requires other != note.userId
    ensures AddNote(db, note, newId, None).Ok?
    ensures var db' := AddNote(db, note, newId, None).value.0;
      && newId in GetNotes(db', note.userId)
      && GetNotes(db', note.userId)[newId] == note.(id := Some(newId), createdAt := StoreEncode(note.createdAt))
      && newId !in GetNotes(db', other)
      && GetNotes(db', other) == GetNotes(db, other)
  {
    var db' := AddNote(db, note, newId, None).value.0;
    assert GetNotes(db', other).Keys == GetNotes(db, other).Keys;
  }

  /** After a delete, the owner's view of tasks has lost exactly that id. */
  lemma DeleteTaskThenGet(db: Db, id: string, uid: string)
    ensures DeleteTask(db, id, None).Ok?
    ensures GetTasks(DeleteTask(db, id, None).value, uid) == GetTasks(db, uid) - {id}
  {
    var a := GetTasks(DeleteTask(db, id, None).value, uid);
    var b := GetTasks(db, uid) - {id};
    assert a.Keys == b.Keys;
  }

  lemma DeleteGoalThenGet(db: Db, id: string, uid: string)
    ensures DeleteGoal(db, id, None).Ok?
    ensures GetGoals(DeleteGoal(db, id, None).value, uid) == GetGoals(db, uid) - {id}
  {
    var a := GetGoals(DeleteGoal(db, id, None).value, uid);
    var b := GetGoals(db, uid) - {id};
    assert a.Keys == b.Keys;
  }

  lemma DeleteNoteThenGet(db: Db, id: string, uid: string)
    ensures DeleteNote(db, id, None).Ok?
    ensures GetNotes(DeleteNote(db, id, None).value, uid) == GetNotes(db, uid) - {id}
  {
    var a := GetNotes(DeleteNote(db, id, None).value, uid);
    var b := GetNotes(db, uid) - {id};
    assert a.Keys == b.Keys;
  }

  /** An update of `progress` stores the value as given, out of range or
      not. */
  lemma ProgressIsNotClamped(db: Db, goalId: string, progress: int)
    requires goalId in db.goals
    ensures UpdateGoal(db, goalId, GoalPatch(None, None, None, Some(progress), None), None).Ok?
    ensures var db' := UpdateGoal(db, goalId, GoalPatch(None, None, None, Some(progress), None), None).value;
      GetGoals(db', db.goals[goalId].userId)[goalId].progress == progress
  {
  }
}

=== FILE: feedback.dfy ===
/** The transient messages (snack bars) a view shows after an operation. */
module Feedback {
  datatype Snack = NoSnack | SuccessSnack(text: string) | ErrorSnack(text: string)
}

=== FILE: goals_view.dfy ===
/** The goals view: its list order, the progress slider bound to the add
    form, the add form, and the per-goal progress update and delete. */
module GoalsView {
  import opened Wrappers
  import opened Times
  import opened Sorting
  import opened Session
  import opened DataService
  import opened Feedback

  /** The add form (`newGoal`); the date picker can be cleared. */
  datatype GoalForm = GoalForm(title: string, description: string, targetDate: Option<Time>, progress: int)

  /** The view's editable state: the form and the slider's control value
      (`null` when unset). */
  datatype GoalsState = GoalsState(form: GoalForm, control: Option<int>, isLoading: bool)

  function EmptyForm(now: int): GoalForm {
    GoalForm("", "", Some(Native(now)), 0)
  }

  /** `value || 0` for the slider's value: `null` and `0` both give `0`. */
  function OrZero(v: Option<int>): (n: int)
    ensures v.Some? && v.value != 0 ==> n == v.value
    ensures v.None? || v.value == 0 ==> n == 0
  {
    v.GetOr(0)
  }

  /** The slider and the form agree: the progress about to be written is the
      one the slider shows. */
  predicate InSync(st: GoalsState) {
    st.form.progress == OrZero(st.control)
  }

  /** The slider's `valueChanges` handler: the control takes the new value
      and the form's progress follows it. */
  function OnProgressChange(st: GoalsState, v: Option<int>): (r: GoalsState)
    ensures InSync(r)
    ensures r.control == v && r.form.progress == OrZero(v)
    ensures r.form.(progress := st.form.progress) == st.form && r.isLoading == st.isLoading
  {
    st.(form := st.form.(progress := OrZero(v)), control := v)
  }

  /** The list order as written: ascending by `targetDate.getTime()`, which
      throws unless every target date is a `Date`. */
  function SortAsWritten(goals: seq<Goal>): (r: Option<seq<Goal>>)
    ensures r.None? <==> |goals| >= 2 && exists i :: 0 <= i < |goals| && !goals[i].targetDate.Native?
    ensures r.Some? ==> multiset(r.value) == multiset(goals)
    ensures r.Some? ==> forall i, j :: 0 <= i < j < |r.value| ==> ToMs(r.value[i].targetDate) <= ToMs(r.value[j].targetDate)
  {
    SortOrThrow(goals, (g: Goal) => GetTime(g.targetDate), false)
  }

  /** The store keeps a goal's `Date` as a `Timestamp`, which has no
      `getTime`, so as soon as the user has two goals the written sort
      throws. */
  lemma SortAsWrittenFailsOnStoredGoals(db: Db, g1: Goal, g2: Goal, id1: string, id2: string)
    requires g1.userId == g2.userId
    requires id1 != id2 && id1 !in db.goals && id2 !in db.goals
    ensures DataService.AddGoal(db, g1, id1, None).Ok?
    ensures var db1 := DataService.AddGoal(db, g1, id1, None).value.0;
      DataService.AddGoal(db1, g2, id2, None).Ok? &&
      var db2 := DataService.AddGoal(db1, g2, id2, None).value.0;
      var view := GetGoals(db2, g1.userId);
      id1 in view && id2 in view && SortAsWritten([view[id1], view[id2]]).None?
  {
    var db1 := DataService.AddGoal(db, g1, id1, None).value.0;
    var db2 := DataService.AddGoal(db1, g2, id2, None).value.0;
    var view := GetGoals(db2, g1.userId);
    assert !([view[id1], view[id2]][0].targetDate.Native?);
  }

  /** The list order as intended: ascending by target instant. */
  function SortForDisplay(goals: seq<Goal>): (r: seq<Goal>)
    ensures multiset(r) == multiset(goals)
    ensures forall i, j :: 0 <= i < j < |r| ==> ToMs(r[i].targetDate) <= ToMs(r[j].targetDate)
  {
    var r := SortByKey(goals, (g: Goal) => ToMs(g.targetDate));
    assert Ascending(r, (g: Goal) => ToMs(g.targetDate));
    r
  }

  const LoadFailedMessage: string := "Failed to load goals"

  /** The list part of the view after one load. */
  datatype Listing = Listing(goals: seq<Goal>, isLoading: bool, snack: Snack)

  /** `loadGoals` as written, for one emission of the goals stream: with no
      user the spinner is never turned off; a stream error ends loading with
      an error; a sort that throws inside the subscriber leaves the old list
      and the spinner on. */
  function LoadGoalsAsWritten(prev: seq<Goal>, user: Cell, emitted: Result<seq<Goal>, string>): (r: Listing)
    ensures user.None? ==> r == Listing(prev, true, NoSnack)
    ensures user.Some? && emitted.Err? ==> r == Listing(prev, false, ErrorSnack(LoadFailedMessage))
    ensures user.Some? && emitted.Ok? ==> (
      && r.snack == NoSnack
      && (r.isLoading <==> SortAsWritten(emitted.value).None?)
      && (r.isLoading ==> r.goals == prev)
      && (!r.isLoading ==> multiset(r.goals) == multiset(emitted.value))
      && (!r.isLoading ==> forall i, j :: 0 <= i < j < |r.goals| ==> ToMs(r.goals[i].targetDate) <= ToMs(r.goals[j].targetDate))
      && (!r.isLoading ==> r.goals == SortAsWritten(emitted.value).value))
  {
    match user
    case None => Listing(prev, true, NoSnack)
    case Some(_) =>
      match emitted
      case Err(_) => Listing(prev, false, ErrorSnack(LoadFailedMessage))
      case Ok(gs) =>
        match SortAsWritten(gs)
        case None => Listing(prev, true, NoSnack)
        case Some(sorted) => Listing(sorted, false, NoSnack)
  }

  /** `loadGoals` with the intended sort: every emission of a signed-in
      user's goals is shown, in target-date order, and loading ends. */
  function LoadGoals(prev: seq<Goal>, user: Cell, emitted: Result<seq<Goal>, string>): (r: Listing)
    ensures user.None? ==> r == Listing(prev, true, NoSnack)
    ensures user.Some? && emitted.Err? ==> r == Listing(prev, false, ErrorSnack(LoadFailedMessage))
    ensures user.Some? && emitted.Ok? ==> (
      && r.snack == NoSnack && !r.isLoading
      && multiset(r.goals) == multiset(emitted.value)
      && (forall i, j :: 0 <= i < j < |r.goals| ==> ToMs(r.goals[i].targetDate) <= ToMs(r.goals[j].targetDate)))
  {
    match user
    case None => Listing(prev, true, NoSnack)
    case Some(_) =>
      match emitted
      case Err(_) => Listing(prev, false, ErrorSnack(LoadFailedMessage))
      case Ok(gs) => Listing(SortForDisplay(gs), false, NoSnack)
  }

  /** Where the written load succeeds, the intended one shows the same
      goals. */
  lemma LoadGoalsAgreesWhenSortSucceeds(prev: seq<Goal>, user: Cell, emitted: Result<seq<Goal>, string>)
    requires !LoadGoalsAsWritten(prev, user, emitted).isLoading
    ensures multiset(LoadGoals(prev, user, emitted).goals) == multiset(LoadGoalsAsWritten(prev, user, emitted).goals)
    ensures LoadGoals(prev, user, emitted).snack == LoadGoalsAsWritten(prev, user, emitted).snack
  {
  }

  const RequiredMessage: string := "Please fill in all required fields"
  const AddedMessage: string := "Goal added successfully"
  const AddFailedMessage: string := "Failed to add goal"

  /** What the add action leaves behind. */
  datatype AddOutcome = AddOutcome(state: GoalsState, db: Db, snack: Snack, written: Option<Goal>)

  /** The form is complete enough to write: a title and a target date. */
  predicate Complete(form: GoalForm) {
    form.title != "" && form.targetDate.Some?
  }

  /** The goal built from the form: its contents with the current user's id. */
  function GoalFromForm(form: GoalForm, uid: string): (g: Goal)
    requires form.targetDate.Some?
    ensures g.id.None? && g.userId == uid
    ensures g.title == form.title && g.description == form.description
    ensures g.targetDate == form.targetDate.value && g.progress == form.progress
  {
    Goal(None, form.title, form.description, form.targetDate.value, form.progress, uid)
  }

  /** `addGoal` as written: an incomplete form writes nothing; without a user
      nothing is written; otherwise the goal is written and the form reset,
      but the slider keeps showing its old value. Loading ends in every
      case. */
  function AddGoalAsWritten(st: GoalsState, user: Cell, db: Db, now: int, newId: string, fault: Option<string>): (r: AddOutcome)
    requires newId !in db.goals
    ensures !r.state.isLoading
    ensures r.state.control == st.control
    ensures r.written.Some? <==> Complete(st.form) && user.Some?
    ensures !Complete(st.form) ==> r.db == db && r.state.form == st.form && r.snack == ErrorSnack(RequiredMessage)
    ensures Complete(st.form) && user.None? ==> r.db == db && r.state.form == st.form && r.snack == NoSnack
    ensures r.written.Some? ==> r.written.value == GoalFromForm(st.form, user.value.uid)
    ensures r.written.Some? && fault.None? ==>
      && r.state.form == EmptyForm(now) && r.snack == SuccessSnack(AddedMessage)
      && r.db.goals.Keys == db.goals.Keys + {newId}
      && r.db.goals[newId] == StoredGoal(r.written.value)
      && (forall k :: k in db.goals ==> r.db.goals[k] == db.goals[k])
      && r.db.tasks == db.tasks && r.db.notes == db.notes
    ensures r.written.Some? && fault.Some? ==> r.db == db && r.state.form == st.form && r.snack == ErrorSnack(AddFailedMessage)
  {
    if !Complete(st.form) then
      AddOutcome(st.(isLoading := false), db, ErrorSnack(RequiredMessage), None)
    else
      match user
      case None => AddOutcome(st.(isLoading := false), db, NoSnack, None)
      case Some(u) =>
        var goal := GoalFromForm(st.form, u.uid);
        match DataService.AddGoal(db, goal, newId, fault)
        case Ok((db', _)) =>
          AddOutcome(st.(form := EmptyForm(now), isLoading := false), db', SuccessSnack(AddedMessage), Some(goal))
        case Err(_) =>
          AddOutcome(st.(isLoading := false), db, ErrorSnack(AddFailedMessage), Some(goal))
  }

  /** After a successful add the form says 0 while the slider still shows
      what the user last chose, so the next goal is written with progress 0
      under a slider showing another value. */
  lemma AddGoalAsWrittenLosesSync(u: User, now: int)
    ensures var st := GoalsState(GoalForm("Read", "", Some(Native(0)), 50), Some(50), false);
      var db := Db(map[], map[], map[]);
      var r := AddGoalAsWritten(st, Some(u), db, now, "g1", None);
      InSync(st) && !InSync(r.state) && r.state.control == Some(50) && r.state.form.progress == 0
  {
  }

  /** `addGoal` as evidently intended: as written, and the reset puts the
      slider back to 0 together with the form. */
  function AddGoal(st: GoalsState, user: Cell, db: Db, now: int, newId: string, fault: Option<string>): (r: AddOutcome)
    requires newId !in db.goals
    ensures InSync(st) ==> InSync(r.state)
    ensures !r.state.isLoading
    ensures r.db == AddGoalAsWritten(st, user, db, now, newId, fault).db
    ensures r.written == AddGoalAsWritten(st, user, db, now, newId, fault).written
  {
    var r := AddGoalAsWritten(st, user, db, now, newId, fault);
    if r.written.Some? && fault.None? then r.(state := r.state.(control := Some(0))) else r
  }

  const ProgressUpdatedMessage: string := "Progress updated"
  const ProgressFailedMessage: string := "Failed to update progress"

  /** What a per-goal action leaves behind. */
  datatype ActionOutcome = ActionOutcome(db: Db, isLoading: bool, snack: Snack)

  /** `updateProgress`: a value equal to the current one writes nothing;
      any other value is written as `{progress}` alone, unclamped. */
  function UpdateProgress(goal: Goal, newValue: int, db: Db, fault: Option<string>): (r: ActionOutcome)
    ensures !r.isLoading
    ensures newValue == goal.progress ==> r == ActionOutcome(db, false, NoSnack)
    ensures newValue != goal.progress ==> var id := IdOrUndefined(goal.id);
      && (r.snack == SuccessSnack(ProgressUpdatedMessage) <==> fault.None? && id in db.goals)
      && (r.snack == SuccessSnack(ProgressUpdatedMessage) ==>
            && r.db.goals.Keys == db.goals.Keys
            && r.db.goals[id] == db.goals[id].(progress := newValue)
            && (forall k :: k in db.goals && k != id ==> r.db.goals[k] == db.goals[k])
            && r.db.tasks == db.tasks && r.db.notes == db.notes)
      && (r.snack != SuccessSnack(ProgressUpdatedMessage) ==> r.db == db && r.snack == ErrorSnack(ProgressFailedMessage))
  {
    if newValue == goal.progress then ActionOutcome(db, false, NoSnack)
    else
      match UpdateGoal(db, IdOrUndefined(goal.id), GoalPatch(None, None, None, Some(newValue), None), fault)
      case Ok(db') => ActionOutcome(db', false, SuccessSnack(ProgressUpdatedMessage))
      case Err(_) => ActionOutcome(db, false, ErrorSnack(ProgressFailedMessage))
  }

  const DeletedMessage: string := "Goal deleted successfully"
  const DeleteFailedMessage: string := "Failed to delete goal"

  /** `deleteGoal`: deletes exactly the goal's own id. */
  function DeleteGoal(goal: Goal, db: Db, fault: Option<string>): (r: ActionOutcome)
    ensures !r.isLoading
    ensures fault.None? ==> (
      && r.snack == SuccessSnack(DeletedMessage)
      && r.db.goals.Keys == db.goals.Keys - {IdOrUndefined(goal.id)}
      && (forall k :: k in r.db.goals ==> r.db.goals[k] == db.goals[k])
      && r.db.tasks == db.tasks && r.db.notes == db.notes)
    ensures fault.Some? ==> r == ActionOutcome(db, false, ErrorSnack(DeleteFailedMessage))
  {
    match DataService.DeleteGoal(db, IdOrUndefined(goal.id), fault)
    case Ok(db') => ActionOutcome(db', false, SuccessSnack(DeletedMessage))
    case Err(_) => ActionOutcome(db, false, ErrorSnack(DeleteFailedMessage))
  }
}

=== FILE: guard.dfy ===
/** The route guard for protected views: `user$` filtered to non-null
    values, the first of them taken, and mapped to a decision. */
module AuthGuard {
  import opened Wrappers
  import opened Navigations
  import opened Session

  /** What a guard emits: let the view activate, or deny it after asking the
      router to go elsewhere. */
  datatype Decision = Allow | Deny(redirect: Navigation)

  /** `filter(user => user !== null)` then `take(1)`: the position of the
      first non-null value the guard's subscription sees, if any. */
  function FirstNonNull(view: seq<Cell>): (r: Option<nat>)
    ensures r.None? <==> forall i :: 0 <= i < |view| ==> view[i].None?
    ensures r.Some? ==> r.value < |view| && view[r.value].Some?
    ensures r.Some? ==> forall i :: 0 <= i < r.value ==> view[i].None?
  {
    if view == [] then None
    else if view[0].Some? then Some(0)
    else
      match FirstNonNull(view[1..])
      case None => None
      case Some(i) => Some(i + 1)
  }

  /** The guard's `map`: allow for a user; otherwise redirect to `/login`
      with the browser's current path as the return target, and deny. */
  function MapUser(u: Cell, currentUrl: string): (r: Decision)
    ensures r == Allow <==> u.Some?
    ensures u.None? ==> r == Deny(GuardRedirect(currentUrl))
  {
    if u.Some? then Allow else Deny(GuardRedirect(currentUrl))
  }

  /** The guard as written, over the values its subscription sees; `None`
      means it never emits, so the navigation never completes. */
  function GuardAsWritten(view: seq<Cell>, currentUrl: string): (r: Option<Decision>)
    ensures r.None? <==> forall i :: 0 <= i < |view| ==> view[i].None?
    ensures r.Some? ==> r.value == Allow
  {
    match FirstNonNull(view)
    case None => None
    case Some(i) => Some(MapUser(view[i], currentUrl))
  }

  /** Once a non-null value has been seen, later values change nothing. */
  lemma {:induction false} GuardIgnoresLaterValues(view: seq<Cell>, later: seq<Cell>, currentUrl: string)
    requires exists i :: 0 <= i < |view| && view[i].Some?
    ensures FirstNonNull(view + later) == FirstNonNull(view)
    ensures GuardAsWritten(view + later, currentUrl) == GuardAsWritten(view, currentUrl)
  {
    assert (view + later)[0] == view[0];
    if view[0].None? {
      var i :| 0 <= i < |view| && view[i].Some?;
      assert view[1..][i - 1] == view[i];
      assert (view + later)[1..] == view[1..] + later;
      GuardIgnoresLaterValues(view[1..], later, currentUrl);
    }
  }

  /** A signed-out user never gets a decision: the provider reports `null`,
      the filter drops it, and the guarded navigation waits forever instead
      of redirecting to `/login`. */
  lemma SignedOutNavigationNeverSettles(ns: seq<Cell>, k: nat, currentUrl: string)
    requires k <= |ns|
    requires forall i :: 0 <= i < |ns| ==> ns[i].None?
    ensures GuardAsWritten(Observed(ns, k), currentUrl).None?
  {
    var v := Observed(ns, k);
    forall i | 0 <= i < |v|
      ensures v[i].None?
    {
      if i == 0 && k > 0 {
        assert ns[..k][k - 1] == ns[k - 1];
      }
    }
  }

  /** The position of the first value that is not `Unknown`: the moment the
      provider has answered. */
  function FirstKnown(view: seq<SessionState>): (r: Option<nat>)
    ensures r.None? <==> forall i :: 0 <= i < |view| ==> view[i] == Unknown
    ensures r.Some? ==> r.value < |view| && view[r.value] != Unknown
    ensures r.Some? ==> forall i :: 0 <= i < r.value ==> view[i] == Unknown
  {
    if view == [] then None
    else if view[0] != Unknown then Some(0)
    else
      match FirstKnown(view[1..])
      case None => None
      case Some(i) => Some(i + 1)
  }

  /** The guard as evidently intended, over the three-state session: wait
      while the session is `Unknown`, then allow a signed-in user and send an
      anonymous one to `/login` with the requested URL as the return
      target. */
  function Guard(view: seq<SessionState>, requestedUrl: string): (r: Option<Decision>)
    ensures r.None? <==> forall i :: 0 <= i < |view| ==> view[i] == Unknown
    ensures r.Some? ==> (r.value == Allow <==> view[FirstKnown(view).value].Authenticated?)
    ensures r.Some? && r.value != Allow ==> r.value == Deny(GuardRedirect(requestedUrl))
  {
    match FirstKnown(view)
    case None => None
    case Some(i) =>
      if view[i].Authenticated? then Some(Allow) else Some(Deny(GuardRedirect(requestedUrl)))
  }

  /** A guard consulted while the session is still unknown and answered by a
      sign-in allows the view; it does not redirect first. */
  lemma NoRedirectWhileUnknown(unknowns: nat, u: User, later: seq<SessionState>, requestedUrl: string)
    ensures Guard(seq(unknowns, _ => Unknown) + [Authenticated(u)] + later, requestedUrl) == Some(Allow)
  {
    var view := seq(unknowns, _ => Unknown) + [Authenticated(u)] + later;
    assert view[unknowns] == Authenticated(u);
    assert forall j :: 0 <= j < unknowns ==> view[j] == Unknown;
  }

  /** Where the intended guard allows, the written one allows too; the two
      differ only in that the written one never denies. */
  lemma {:induction false} GuardAllowImpliesAsWrittenAllow(ns: seq<Cell>, k: nat, requestedUrl: string, currentUrl: string)
    requires k <= |ns|
    requires Guard(ObservedState(ns, k), requestedUrl) == Some(Allow)
    ensures GuardAsWritten(Observed(ns, k), currentUrl) == Some(Allow)
  {
    var sv := ObservedState(ns, k);
    var v := Observed(ns, k);
    EraseObservedState(ns, k);
    var i := FirstKnown(sv).value;
    assert Erase(sv[i]) == v[i];
    assert v[i].Some?;
  }
}

=== FILE: navigation.dfy ===
/** A call `router.navigate([path], { queryParams: { returnUrl }, replaceUrl })`. */
module Navigations {
  import opened Wrappers

  /** `replaceUrl` replaces the current history entry instead of pushing a
      new one. */
  datatype Navigation = Navigation(path: string, returnUrl: Option<string>, replaceUrl: bool)

  const LoginPath: string := "/login"
  const DashboardPath: string := "/dashboard"

  /** A plain navigation: no query parameters, a new history entry. */
  function GoTo(path: string): (nav: Navigation)
    ensures nav.path == path && nav.returnUrl.None? && !nav.replaceUrl
  {
    Navigation(path, None, false)
  }

  /** Navigation to the login view, remembering where the user was going, as
      a new history entry (the start-up check's redirect). */
  function LoginReturningTo(url: string): (nav: Navigation)
    ensures nav.path == LoginPath && nav.returnUrl == Some(url) && !nav.replaceUrl
  {
    Navigation(LoginPath, Some(url), false)
  }

  /** The guard's redirect: to the login view with the return URL, replacing
      the current history entry. */
  function GuardRedirect(url: string): (nav: Navigation)
    ensures nav.path == LoginPath && nav.returnUrl == Some(url) && nav.replaceUrl
  {
    Navigation(LoginPath, Some(url), true)
  }
}

=== FILE: notes_view.dfy ===
/** The notes view: the add form's validation by note kind, the add and
    delete actions, and the newest-first list order. */
module NotesView {
  import opened Wrappers
  import opened Times
  import opened Sorting
  import opened Session
  import opened DataService
  import opened Feedback

  /** The add form (`newNote`): the kind can be unset, and the photo and the
      recording are filled in by the capture actions. */
  datatype NoteForm = NoteForm(title: string, content: string, noteType: Option<NoteType>,
                               photoUrl: Option<string>, audioData: Option<string>)

  function EmptyForm(): NoteForm {
    NoteForm("", "", Some(Text), None, None)
  }

  /** A JavaScript-truthy optional string: present and non-empty. */
  predicate Filled(s: Option<string>) {
    s.Some? && s.value != ""
  }

  const RequiredMessage: string := "Please fill in all required fields"
  const ContentMessage: string := "Please enter note content"
  const PhotoMessage: string := "Please capture a photo"
  const AudioMessage: string := "Please record audio"

  /** The add form's checks, in order; `None` when the form may be written. */
  function Validate(form: NoteForm): (r: Option<string>)
    ensures r.None? <==> (
      && form.title != "" && form.noteType.Some?
      && (form.noteType.value == Text ==> form.content != "")
      && (form.noteType.value == Photo ==> Filled(form.photoUrl))
      && (form.noteType.value == Audio ==> Filled(form.audioData)))
    ensures r == Some(RequiredMessage) <==> form.title == "" || form.noteType.None?
    ensures r == Some(ContentMessage) <==> form.title != "" && form.noteType == Some(Text) && form.content == ""
    ensures r == Some(PhotoMessage) <==> form.title != "" && form.noteType == Some(Photo) && !Filled(form.photoUrl)
    ensures r == Some(AudioMessage) <==> form.title != "" && form.noteType == Some(Audio) && !Filled(form.audioData)
  {
    if form.title == "" || form.noteType.None? then Some(RequiredMessage)
    else if form.noteType.value == Text && form.content == "" then Some(ContentMessage)
    else if form.noteType.value == Photo && !Filled(form.photoUrl) then Some(PhotoMessage)
    else if form.noteType.value == Audio && !Filled(form.audioData) then Some(AudioMessage)
    else None
  }

  /** A text note needs only its content: a leftover empty photo or
      recording does not block it, and content does not unblock a photo
      note. */
  lemma ValidationFollowsKind(form: NoteForm)
    requires form.title != "" && form.noteType.Some?
    ensures form.noteType.value == Text ==> (Validate(form).None? <==> form.content != "")
    ensures form.noteType.value == Photo ==> (Validate(form).None? <==> Filled(form.photoUrl))
    ensures form.noteType.value == Audio ==> (Validate(form).None? <==> Filled(form.audioData))
  {
  }

  /** The note built from a valid form: its contents, the current user's id
      and the current instant as a `Date`. */
  function NoteFromForm(form: NoteForm, uid: string, now: int): (n: Note)
    requires form.noteType.Some?
    ensures n.id.None? && n.userId == uid && n.createdAt == Native(now)
    ensures n.title == form.title && n.content == form.content && Some(n.noteType) == form.noteType
    ensures n.photoUrl == form.photoUrl && n.audioData == form.audioData
  {
    Note(None, form.title, form.content, form.noteType.value, form.photoUrl, form.audioData, Native(now), uid)
  }

  const AddedMessage: string := "Note added successfully"
  const AddFailedMessage: string := "Failed to add note"

  /** What the add action leaves behind. */
  datatype AddOutcome = AddOutcome(form: NoteForm, db: Db, isLoading: bool, snack: Snack, written: Option<Note>)

  /** `addNote`: a form that fails a check writes nothing and shows that
      check's message; without a user nothing is written; otherwise the note
      is written and the form reset. Loading ends in every case. */
  function AddNote(form: NoteForm, user: Cell, db: Db, now: int, newId: string, fault: Option<string>): (r: AddOutcome)
    requires newId !in db.notes
    ensures !r.isLoading
    ensures r.written.Some? <==> Validate(form).None? && user.Some?
    ensures Validate(form).Some? ==> r == AddOutcome(form, db, false, ErrorSnack(Validate(form).value), None)
    ensures Validate(form).None? && user.None? ==> r == AddOutcome(form, db, false, NoSnack, None)
    ensures r.written.Some? ==> r.written.value == NoteFromForm(form, user.value.uid, now)
    ensures r.written.Some? && fault.None? ==> (
      && r.form == EmptyForm() && r.snack == SuccessSnack(AddedMessage)
      && r.db.notes.Keys == db.notes.Keys + {newId}
      && r.db.notes[newId] == StoredNote(r.written.value)
      && r.db.notes[newId].createdAt == FsTimestamp(now)
      && (forall k :: k in db.notes ==> r.db.notes[k] == db.notes[k])
      && r.db.tasks == db.tasks && r.db.goals == db.goals)
    ensures r.written.Some? && fault.Some? ==> r.db == db && r.form == form && r.snack == ErrorSnack(AddFailedMessage)
  {
    match Validate(form)
    case Some(message) => AddOutcome(form, db, false, ErrorSnack(message), None)
    case None =>
      match user
      case None => AddOutcome(form, db, false, NoSnack, None)
      case Some(u) =>
        var note := NoteFromForm(form, u.uid, now);
        match DataService.AddNote(db, note, newId, fault)
        case Ok((db', _)) => AddOutcome(EmptyForm(), db', false, SuccessSnack(AddedMessage), Some(note))
        case Err(_) => AddOutcome(form, db, false, ErrorSnack(AddFailedMessage), Some(note))
  }

  /** The list order: newest first by `createdAt`, read through
      `getTime` or `toMillis`; the comparator throws on a string date. */
  function SortForDisplay(notes: seq<Note>): (r: Option<seq<Note>>)
    ensures r.None? <==> |notes| >= 2 && exists i :: 0 <= i < |notes| && notes[i].createdAt.Iso?
    ensures r.Some? ==> multiset(r.value) == multiset(notes)
    ensures r.Some? ==> forall i, j :: 0 <= i < j < |r.value| ==> ToMs(r.value[i].createdAt) >= ToMs(r.value[j].createdAt)
  {
    var r := SortOrThrow(notes, (n: Note) => DateOrTimestampMillis(n.createdAt), true);
    if r.Some? then
      assert Descending(r.value, (n: Note) => DateOrTimestampMillis(n.createdAt).GetOr(0));
      assert forall i :: 0 <= i < |r.value| ==> r.value[i] in multiset(notes);
      r
    else r
  }

  /** No stored note carries its creation time as a string. */
  predicate NoStringDates(db: Db) {
    forall k :: k in db.notes ==> !db.notes[k].createdAt.Iso?
  }

  /** The add action keeps that so: it writes `createdAt` as a `Date`, which
      the store keeps as a `Timestamp`. */
  lemma AddNoteKeepsDatesReadable(form: NoteForm, user: Cell, db: Db, now: int, newId: string, fault: Option<string>)
    requires newId !in db.notes
    requires NoStringDates(db)
    ensures NoStringDates(AddNote(form, user, db, now, newId, fault).db)
  {
    var r := AddNote(form, user, db, now, newId, fault);
    forall k | k in r.db.notes
      ensures !r.db.notes[k].createdAt.Iso?
    {
      if k != newId {
        assert k in db.notes;
      }
    }
  }

  /** So the list of a user's notes, drawn from such a store in any order,
      always sorts. */
  lemma {:induction false} StoredNotesAlwaysSort(db: Db, uid: string, listed: seq<Note>)
    requires NoStringDates(db)
    requires forall i :: 0 <= i < |listed| ==> listed[i] in GetNotes(db, uid).Values
    ensures SortForDisplay(listed).Some?
  {
    var view := GetNotes(db, uid);
    forall i | 0 <= i < |listed|
      ensures !listed[i].createdAt.Iso?
    {
      assert listed[i] in view.Values;
      var k :| k in view && view[k] == listed[i];
      assert view[k].(id := db.notes[k].id) == db.notes[k];
    }
  }

  const LoadFailedMessage: string := "Failed to load notes"

  /** The list part of the view after one load. */
  datatype Listing = Listing(notes: seq<Note>, isLoading: bool, snack: Snack)

  /** `loadNotes`, for one emission of the notes stream: a stream error ends
      loading with an error; a sort that throws inside the subscriber leaves
      the old list and the spinner on. */
  function LoadNotes(prev: seq<Note>, emitted: Result<seq<Note>, string>): (r: Listing)
    ensures emitted.Err? ==> r == Listing(prev, false, ErrorSnack(LoadFailedMessage))
    ensures emitted.Ok? ==> (
      && r.snack == NoSnack
      && (r.isLoading <==> SortForDisplay(emitted.value).None?)
      && (r.isLoading ==> r.notes == prev)
      && (!r.isLoading ==> multiset(r.notes) == multiset(emitted.value))
      && (!r.isLoading ==> forall i, j :: 0 <= i < j < |r.notes| ==> ToMs(r.notes[i].createdAt) >= ToMs(r.notes[j].createdAt))
      && (!r.isLoading ==> r.notes == SortForDisplay(emitted.value).value))
  {
    match emitted
    case Err(_) => Listing(prev, false, ErrorSnack(LoadFailedMessage))
    case Ok(ns) =>
      match SortForDisplay(ns)
      case None => Listing(prev, true, NoSnack)
      case Some(sorted) => Listing(sorted, false, NoSnack)
  }

  const DeletedMessage: string := "Note deleted successfully"
  const DeleteFailedMessage: string := "Failed to delete note"

  /** `deleteNote`: deletes exactly the note's own id. */
  function DeleteNote(note: Note, db: Db, fault: Option<string>): (r: (Db, bool, Snack))
    ensures !r.1
    ensures fault.None? ==> (
      && r.2 == SuccessSnack(DeletedMessage)
      && r.0.notes.Keys == db.notes.Keys - {IdOrUndefined(note.id)}
      && (forall k :: k in r.0.notes ==> r.0.notes[k] == db.notes[k])
      && r.0.tasks == db.tasks && r.0.goals == db.goals)
    ensures fault.Some? ==> r == (db, false, ErrorSnack(DeleteFailedMessage))
  {
    match DataService.DeleteNote(db, IdOrUndefined(note.id), fault)
    case Ok(db') => (db', false, SuccessSnack(DeletedMessage))
    case Err(_) => (db, false, ErrorSnack(DeleteFailedMessage))
  }
}

=== FILE: register_view.dfy ===
/** The register view: create the account when the two passwords agree,
    then go to the dashboard. */
module RegisterView {
  import opened Wrappers
  import opened Navigations
  import opened Session
  import Routes

  /** What a submission does, in order. */
  datatype Effect = CreateAccount(email: string, password: string) | Go(nav: Navigation)

  /** `onSubmit`: differing passwords do nothing at all; otherwise the
      account is requested with the form's email and password, and only a
      successful sign-up navigates, to the dashboard. A failed sign-up is
      swallowed. */
  function OnSubmit(email: string, password: string, confirm: string, signUp: Result<User, string>): (r: seq<Effect>)
    ensures password != confirm <==> r == []
    ensures password == confirm ==> r[0] == CreateAccount(email, password)
    ensures (exists i :: 0 <= i < |r| && r[i].Go?) <==> password == confirm && signUp.Ok?
    ensures forall i :: 0 <= i < |r| && r[i].Go? ==> i > 0 && r[i].nav == GoTo(DashboardPath)
  {
    if password != confirm then []
    else if signUp.Ok? then
      var r := [CreateAccount(email, password), Go(GoTo(DashboardPath))];
      assert r[1].Go?;
      r
    else [CreateAccount(email, password)]
  }

  /** The page a successful registration lands on is shown whatever the
      session holds, since the dashboard route has no guard. */
  lemma RegistrationLandsOnDashboard(email: string, password: string, u: User,
                                     cells: seq<Cell>)
    ensures var r := OnSubmit(email, password, password, Ok(u));
      |r| == 2 && r[1].Go? &&
      Routes.ActivateAsWritten(r[1].nav.path[1..], cells) == Routes.Shown(Routes.DashboardPage)
  {
    assert DashboardPath[1..] == "dashboard";
    Routes.DashboardIsNotGuarded([], cells);
  }
}

=== FILE: routes.dfy ===
/** The router's table: a first-match lookup from a URL path (without its
    leading slash) to a redirect or a page, some pages behind the guard. */
module Routes {
  import opened Wrappers
  import opened Navigations
  import opened Session
  import opened AuthGuard

  datatype Page = DashboardPage | LoginPage | RegisterPage | TasksPage | GoalsPage | NotesPage

  /** What a route does: redirect to another path, or load a page, with the
      guard in front of it when `guarded`. */
  datatype Target = RedirectTo(to: string) | Load(page: Page, guarded: bool)

  datatype Route = Route(path: string, target: Target)

  const Wildcard: string := "**"

  /** The routes in declaration order. The empty path is matched in full;
      the other paths have no children, so they too match only the whole
      URL. */
  const Table: seq<Route> := [
    Route("", RedirectTo("login")),
    Route("dashboard", Load(DashboardPage, false)),
    Route("login", Load(LoginPage, false)),
    Route("register", Load(RegisterPage, false)),
    Route("tasks", Load(TasksPage, true)),
    Route("goals", Load(GoalsPage, true)),
    Route("notes", Load(NotesPage, true)),
    Route(Wildcard, RedirectTo("login"))
  ]

  /** The paths the table lists before its wildcard. */
  const Listed: set<string> := {"", "dashboard", "login", "register", "tasks", "goals", "notes"}

  predicate Matches(r: Route, url: string) {
    r.path == Wildcard || r.path == url
  }

  /** The position of the first route that matches `url`. */
  function FirstMatch(rs: seq<Route>, url: string): (r: Option<nat>)
    ensures r.None? <==> forall i :: 0 <= i < |rs| ==> !Matches(rs[i], url)
    ensures r.Some? ==> r.value < |rs| && Matches(rs[r.value], url)
    ensures r.Some? ==> forall j :: 0 <= j < r.value ==> !Matches(rs[j], url)
  {
    if rs == [] then None
    else if Matches(rs[0], url) then Some(0)
    else
      match FirstMatch(rs[1..], url)
      case None => None
      case Some(i) => Some(i + 1)
  }

  /** The route chosen for `url` and its position in the table; the wildcard
      at the end guarantees there always is one. */
  function Resolve(url: string): (r: (nat, Target))
    ensures r.0 < |Table| && Matches(Table[r.0], url) && r.1 == Table[r.0].target
    ensures forall j :: 0 <= j < r.0 ==> !Matches(Table[j], url)
  {
    assert Matches(Table[|Table| - 1], url);
    var i := FirstMatch(Table, url).value;
    (i, Table[i].target)
  }

  /** Every route before the wildcard has a listed path. */
  lemma ListedBeforeWildcard()
    ensures forall j :: 0 <= j < |Table| - 1 ==> Table[j].path in Listed && Table[j].path != Wildcard
    ensures Table[|Table| - 1].path == Wildcard
  {
  }

  /** `url` resolves to route `k` when `k` is the first route matching it. */
  lemma ResolvesAt(url: string, k: nat)
    requires k < |Table| && Matches(Table[k], url)
    requires forall j :: 0 <= j < k ==> Table[j].path != url && Table[j].path != Wildcard
    ensures Resolve(url).0 == k && Resolve(url).1 == Table[k].target
  {
  }

  /** The position of a listed path in the table. */
  function ListedIndex(url: string): (k: nat)
    requires url in Listed
    ensures k < |Table| - 1 && Table[k].path == url
    ensures forall j :: 0 <= j < k ==> Table[j].path != url
  {
    if url == "" then 0
    else if url == "dashboard" then 1
    else if url == "login" then 2
    else if url == "register" then 3
    else if url == "tasks" then 4
    else if url == "goals" then 5
    else 6
  }

  /** A listed path resolves to its own route, never to the wildcard. */
  lemma ResolveListed(url: string)
    requires url in Listed
    ensures Resolve(url).0 == ListedIndex(url) < |Table| - 1
    ensures Resolve(url).1 == Table[ListedIndex(url)].target
  {
    ListedBeforeWildcard();
    ResolvesAt(url, ListedIndex(url));
  }

  /** What each listed path resolves to. */
  lemma ResolveListedPaths()
    ensures Resolve("").1 == RedirectTo("login")
    ensures Resolve("dashboard").1 == Load(DashboardPage, false)
    ensures Resolve("login").1 == Load(LoginPage, false)
    ensures Resolve("register").1 == Load(RegisterPage, false)
    ensures Resolve("tasks").1 == Load(TasksPage, true)
    ensures Resolve("goals").1 == Load(GoalsPage, true)
    ensures Resolve("notes").1 == Load(NotesPage, true)
  {
    ResolveListed("");
    ResolveListed("dashboard");
    ResolveListed("login");
    ResolveListed("register");
    ResolveListed("tasks");
    ResolveListed("goals");
    ResolveListed("notes");
  }

  /** Exactly the unlisted paths reach the wildcard, which redirects them
      to `login`. */
  lemma WildcardCatchesExactlyUnlisted(url: string)
    ensures Resolve(url).0 == |Table| - 1 <==> url !in Listed
    ensures url !in Listed ==> Resolve(url).1 == RedirectTo("login")
  {
    ListedBeforeWildcard();
    if url in Listed {
      ResolveListed(url);
    } else {
      ResolvesAt(url, |Table| - 1);
    }
  }

  /** Every redirect the table can choose names `login`. */
  lemma RedirectsNameLogin(url: string)
    ensures Resolve(url).1.RedirectTo? ==> Resolve(url).1.to == "login"
  {
    WildcardCatchesExactlyUnlisted(url);
    if url in Listed {
      ResolveListed(url);
    }
  }

  /** Where `url` finally leads: its route, or the route its redirect names
      (every redirect in the table names `login`, which loads a page). */
  function Follow(url: string): (r: Target)
    ensures r.Load?
    ensures Resolve(url).1.Load? ==> r == Resolve(url).1
    ensures Resolve(url).1.RedirectTo? ==> r == Load(LoginPage, false)
  {
    var t := Resolve(url).1;
    if t.Load? then t
    else
      RedirectsNameLogin(url);
      ResolveListed("login");
      Resolve(t.to).1
  }

  /** Which paths end at which page, and which of them are guarded. */
  lemma FollowCharacterised(url: string)
    ensures Follow(url).guarded <==> url in {"tasks", "goals", "notes"}
    ensures url !in Listed || url == "" || url == "login" ==> Follow(url).page == LoginPage
  {
    WildcardCatchesExactlyUnlisted(url);
    if url in Listed {
      ResolveListed(url);
      var k := ListedIndex(url);
      assert Table[k].target.RedirectTo? ==> url == "";
      assert Table[k].target.Load? ==> (Table[k].target.guarded <==> url in {"tasks", "goals", "notes"});
    }
  }

  /** The page each path of the table ends at. */
  lemma FollowPages()
    ensures Follow("").page == LoginPage && Follow("login").page == LoginPage
    ensures Follow("dashboard").page == DashboardPage
    ensures Follow("register").page == RegisterPage
    ensures Follow("tasks").page == TasksPage
    ensures Follow("goals").page == GoalsPage
    ensures Follow("notes").page == NotesPage
  {
    ResolveListedPaths();
    FollowCharacterised("");
  }

  /** The outcome of a navigation to `url`. */
  datatype Activation = Shown(page: Page) | Redirected(nav: Navigation) | Pending

  /** Navigating to `url` while the guard's subscription sees `view`: follow
      a redirect, then show the page, consulting the guard when the route
      carries it. */
  function Activate(url: string, view: seq<SessionState>): (a: Activation)
    ensures url !in {"tasks", "goals", "notes"} ==> a.Shown?
    ensures url !in Listed || url == "" ==> a == Shown(LoginPage)
    ensures a == Pending <==> url in {"tasks", "goals", "notes"} && forall i :: 0 <= i < |view| ==> view[i] == Unknown
    ensures a.Shown? ==> a.page == Follow(url).page
    ensures a.Redirected? ==> a.nav == GuardRedirect("/" + url)
  {
    FollowCharacterised(url);
    var t := Follow(url);
    if !t.guarded then Shown(t.page)
    else
      var d := AuthGuard.Guard(view, "/" + url);
      if d.None? then Pending
      else if d.value.Allow? then Shown(t.page)
      else Redirected(d.value.redirect)
  }

  /** Navigating to `url` with the guard as installed, whose subscription
      sees the raw cell values `cells`: a guarded page waits until some
      value is non-null and is then shown; the guard never redirects. */
  function ActivateAsWritten(url: string, cells: seq<Cell>): (a: Activation)
    ensures url !in {"tasks", "goals", "notes"} ==> a.Shown?
    ensures url !in Listed || url == "" ==> a == Shown(LoginPage)
    ensures a == Pending <==> url in {"tasks", "goals", "notes"} && forall i :: 0 <= i < |cells| ==> cells[i].None?
    ensures a.Shown? <==> url !in {"tasks", "goals", "notes"} || exists i :: 0 <= i < |cells| && cells[i].Some?
    ensures a.Shown? ==> a.page == Follow(url).page
    ensures !a.Redirected?
  {
    FollowCharacterised(url);
    var t := Follow(url);
    if !t.guarded then Shown(t.page)
    else
      match AuthGuard.GuardAsWritten(cells, "/" + url)
      case None => Pending
      case Some(Allow) => Shown(t.page)
      case Some(Deny(nav)) => Redirected(nav)
  }

  /** Whatever the installed guard shows is what the intended guard shows a
      signed-in user. */
  lemma AsWrittenShowsWhatSignedInSees(url: string, cells: seq<Cell>, u: User)
    ensures ActivateAsWritten(url, cells).Shown? ==> ActivateAsWritten(url, cells) == Activate(url, [Authenticated(u)])
  {
    var view := [Authenticated(u)];
    assert AuthGuard.FirstKnown(view) == Some(0);
  }

  /** Where the two guards part: a signed-out user (every cell `null`) who
      asks for a guarded page is redirected to the login view by the
      intended guard and left waiting forever by the installed one. */
  lemma SignedOutGuardedNavigationHangs(url: string, nulls: nat)
    requires url in {"tasks", "goals", "notes"}
    ensures ActivateAsWritten(url, seq(nulls, _ => None)) == Pending
    ensures Activate(url, [Anonymous]) == Redirected(GuardRedirect("/" + url))
  {
    var view := [Anonymous];
    assert AuthGuard.FirstKnown(view) == Some(0);
  }

  /** The dashboard route has no guard: it is shown even to a session known
      to be anonymous, although the start-up check treats `/dashboard` as
      protected. */
  lemma DashboardIsNotGuarded(view: seq<SessionState>, cells: seq<Cell>)
    ensures Activate("dashboard", view) == Shown(DashboardPage)
    ensures ActivateAsWritten("dashboard", cells) == Shown(DashboardPage)
  {
    ResolveListedPaths();
  }

  /** A signed-in user reaches a guarded page once the provider has
      answered. */
  lemma SignedInReachesGuardedPages(url: string, unknowns: nat, u: User, later: seq<SessionState>)
    requires url in {"tasks", "goals", "notes"}
    ensures Activate(url, seq(unknowns, _ => Unknown) + [Authenticated(u)] + later) == Shown(Follow(url).page)
    ensures var page := Follow(url).page;
      (url == "tasks" ==> page == TasksPage) && (url == "goals" ==> page == GoalsPage) && (url == "notes" ==> page == NotesPage)
  {
    AuthGuard.NoRedirectWhileUnknown(unknowns, u, later, "/" + url);
    ResolveListedPaths();
  }

  /** After a successful sign-out the navigation it asks for lands on the
      login page, which neither guard holds back. */
  lemma SignOutLandsOnLogin(cells: seq<Cell>, view: seq<SessionState>)
    ensures var steps := SignOut(None).0;
      && steps[|steps| - 1].Navigate?
      && ActivateAsWritten(steps[|steps| - 1].nav.path[1..], cells) == Shown(LoginPage)
      && Activate(steps[|steps| - 1].nav.path[1..], view) == Shown(LoginPage)
  {
    assert LoginPath[1..] == "login";
    ResolveListedPaths();
  }
}

=== FILE: session.dfy ===
/** The authentication service: the session cell fed by the identity
    provider's change notifications, the one-shot lookup of the current user,
    Google sign-in with its error mapping, and sign-out. */
module Session {
  import opened Wrappers
  import opened Navigations

  /** The signed-in identity the provider reports. */
  datatype User = User(uid: string, email: string)

  /** The cell's content: `None` is JavaScript `null`. */
  type Cell = Option<User>

  /** `onAuthStateChanged`'s handler: the cell becomes the notified value,
      whatever it held before. */
  function Notify(cell: Cell, notified: Cell): Cell {
    notified
  }

  /** The cell after feeding it `ns` in order, starting from `cell`. */
  function Run(cell: Cell, ns: seq<Cell>): Cell
    decreases |ns|
  {
    if ns == [] then cell else Run(Notify(cell, ns[0]), ns[1..])
  }

  lemma {:induction false} RunEndsAtLast(cell: Cell, ns: seq<Cell>)
    ensures Run(cell, ns) == if ns == [] then cell else ns[|ns| - 1]
    decreases |ns|
  {
    if ns != [] {
      RunEndsAtLast(Notify(cell, ns[0]), ns[1..]);
    }
  }

  /** The cell of a `BehaviorSubject(null)` after the notifications `ns`: it
      is `null` before the first one and the most recent one afterwards. */
  function Current(ns: seq<Cell>): (c: Cell)
    ensures ns == [] ==> c == None
    ensures ns != [] ==> c == ns[|ns| - 1]
  {
    RunEndsAtLast(None, ns);
    Run(None, ns)
  }

  /** What a subscriber to `user$` sees when it subscribes after the first
      `k` of the notifications `ns`: the cell's value at that moment (replayed
      at once), then every later notification. */
  function Observed(ns: seq<Cell>, k: nat): (view: seq<Cell>)
    requires k <= |ns|
    ensures |view| == |ns| - k + 1
    ensures view[0] == Current(ns[..k])
    ensures view[|view| - 1] == Current(ns)
    ensures forall i :: 1 <= i < |view| ==> view[i] == ns[k + i - 1]
  {
    [Current(ns[..k])] + ns[k..]
  }

  /** `firstValueFrom`: the first value of a stream, or an `EmptyError` when
      the stream completes without one. */
  function FirstValue(view: seq<Cell>): (r: Result<Cell, string>)
    ensures r.Ok? <==> view != []
    ensures r.Ok? ==> r.value == view[0]
  {
    if view == [] then Err("EmptyError: no elements in sequence") else Ok(view[0])
  }

  /** `getCurrentUser`: the first value the subscription sees, with any error
      turned into `null`. It never fails. */
  function GetCurrentUser(view: seq<Cell>): (u: Cell)
    ensures view != [] ==> u == view[0]
    ensures FirstValue(view).Err? ==> u == None
  {
    match FirstValue(view)
    case Ok(u) => u
    case Err(_) => None
  }

  /** Called at any moment, `getCurrentUser` answers at once with the cell's
      current value: `null` before the first notification, exactly as for a
      signed-out user. */
  lemma GetCurrentUserReadsCell(ns: seq<Cell>)
    ensures GetCurrentUser(Observed(ns, |ns|)) == Current(ns)
    ensures ns == [] ==> GetCurrentUser(Observed(ns, |ns|)) == None
  {
  }

  /** The three states of knowledge about the session: the provider has not
      answered yet, or it reported a user, or it reported nobody. */
  datatype SessionState = Unknown | Authenticated(user: User) | Anonymous

  /** A provider notification as a known state. */
  function Known(c: Cell): (s: SessionState)
    ensures s != Unknown
    ensures s.Authenticated? <==> c.Some?
  {
    if c.Some? then Authenticated(c.value) else Anonymous
  }

  /** The cell a `SessionState` collapses to in the code: `null` for both
      `Unknown` and `Anonymous`. */
  function Erase(s: SessionState): (c: Cell)
    ensures c.Some? <==> s.Authenticated?
  {
    if s.Authenticated? then Some(s.user) else None
  }

  /** The three-state session after the notifications `ns`. */
  function StateAfter(ns: seq<Cell>): (s: SessionState)
    ensures s == Unknown <==> ns == []
    ensures ns != [] ==> s == Known(ns[|ns| - 1])
  {
    if ns == [] then Unknown else Known(ns[|ns| - 1])
  }

  /** The three-state counterpart of `Observed`. */
  function ObservedState(ns: seq<Cell>, k: nat): (view: seq<SessionState>)
    requires k <= |ns|
    ensures |view| == |ns| - k + 1
    ensures view[0] == StateAfter(ns[..k])
    ensures forall i :: 1 <= i < |view| ==> view[i] == Known(ns[k + i - 1])
  {
    [StateAfter(ns[..k])] + seq(|ns| - k, i requires 0 <= i < |ns| - k => Known(ns[k + i]))
  }

  /** The session never returns to `Unknown`: only a subscriber attached
      before the first notification sees it, and only as its first value. */
  lemma UnknownOnlyBeforeFirstNotification(ns: seq<Cell>, k: nat)
    requires k <= |ns|
    ensures forall i :: 0 <= i < |ObservedState(ns, k)| ==>
      (ObservedState(ns, k)[i] == Unknown <==> i == 0 && k == 0)
  {
  }

  /** Collapsing the three-state view gives exactly what the code's
      subscriber sees. */
  lemma {:induction false} EraseObservedState(ns: seq<Cell>, k: nat)
    requires k <= |ns|
    ensures var sv := ObservedState(ns, k);
      var v := Observed(ns, k);
      |sv| == |v| && forall i :: 0 <= i < |v| ==> Erase(sv[i]) == v[i]
  {
    var sv := ObservedState(ns, k);
    var v := Observed(ns, k);
    forall i | 0 <= i < |v|
      ensures Erase(sv[i]) == v[i]
    {
      if i == 0 {
        if k > 0 {
          assert ns[..k][k - 1] == ns[k - 1];
        }
      }
    }
  }

  /** The code cannot tell "not yet known" from "signed out": both read as
      `null`, though they are different states of knowledge. */
  lemma NotYetKnownLooksSignedOut()
    ensures GetCurrentUser(Observed([], 0)) == GetCurrentUser(Observed([None], 1)) == None
    ensures StateAfter([]) != StateAfter([None])
  {
    var ns: seq<Cell> := [None];
    assert ns[..1] == ns;
  }

  // ---------------------------------------------------------------- Google

  /** The Google provider object the sign-in call builds. */
  datatype ProviderConfig = ProviderConfig(customParameters: map<string, string>, scopes: seq<string>)

  /** `new GoogleAuthProvider()` with `prompt: 'select_account'` and the
      scopes `profile` and `email`, in that order. */
  function GoogleProvider(): (p: ProviderConfig)
    ensures "prompt" in p.customParameters && p.customParameters["prompt"] == "select_account"
    ensures "profile" in p.scopes && "email" in p.scopes
  {
    ProviderConfig(map["prompt" := "select_account"], ["profile", "email"])
  }

  /** What `signInWithGoogle` throws: a new `Error` with a fixed message, or
      the provider's error unchanged (identified by its code). */
  datatype GoogleFailure = Message(text: string) | Rethrown(code: string)

  const CancelledMessage: string := "Sign-in was cancelled"
  const PopupBlockedMessage: string := "Popup was blocked by the browser. Please allow popups for this site."
  const NotSupportedMessage: string := "Google Sign-In is not supported in this environment"

  /** The Google sign-in error mapping: three provider codes become a new
      error with a fixed message; every other code is rethrown as it came. */
  function MapGoogleError(code: string): (f: GoogleFailure)
    ensures code == "auth/popup-closed-by-user" <==> f == Message(CancelledMessage)
    ensures code == "auth/popup-blocked" <==> f == Message(PopupBlockedMessage)
    ensures code == "auth/operation-not-supported-in-this-environment" <==> f == Message(NotSupportedMessage)
    ensures f.Rethrown? <==> code !in {"auth/popup-closed-by-user", "auth/popup-blocked",
                                        "auth/operation-not-supported-in-this-environment"}
    ensures f.Rethrown? ==> f.code == code
  {
    if code == "auth/popup-closed-by-user" then Message(CancelledMessage)
    else if code == "auth/popup-blocked" then Message(PopupBlockedMessage)
    else if code == "auth/operation-not-supported-in-this-environment" then Message(NotSupportedMessage)
    else Rethrown(code)
  }

  /** No two provider codes are mapped to the same failure, so the caller can
      always tell which one occurred. */
  lemma MapGoogleErrorInjective(a: string, b: string)
    requires a != b
    ensures MapGoogleError(a) != MapGoogleError(b)
  {
  }

  /** The result of the popup: the signed-in user, or the provider's error
      code. */
  type PopupResult = Result<User, string>

  /** `signInWithGoogle`: the popup's user on success, the mapped failure
      otherwise. */
  function SignInWithGoogle(popup: PopupResult): (r: Result<User, GoogleFailure>)
    ensures popup.Ok? <==> r.Ok?
    ensures popup.Ok? ==> r.value == popup.value
    ensures popup.Err? ==> r.error == MapGoogleError(popup.error)
  {
    match popup
    case Ok(u) => Ok(u)
    case Err(code) => Err(MapGoogleError(code))
  }

  // --------------------------------------------------------------- sign-out

  /** The observable steps of `signOut`, in order. */
  datatype Step = ProviderSignOut | Navigate(nav: Navigation)

  /** `signOut`: ask the provider to sign out; only when that succeeds,
      navigate to `/login`. A provider failure is rethrown without
      navigating. */
  function SignOut(provider: Option<string>): (r: (seq<Step>, Option<string>))
    ensures |r.0| >= 1 && r.0[0] == ProviderSignOut
    ensures Navigate(GoTo(LoginPath)) in r.0 <==> provider.None?
    ensures forall i :: 0 <= i < |r.0| && r.0[i].Navigate? ==> i > 0 && r.0[i].nav.path == LoginPath
    ensures r.1 == provider
  {
    match provider
    case None => ([ProviderSignOut, Navigate(GoTo(LoginPath))], None)
    case Some(e) => ([ProviderSignOut], Some(e))
  }
}

=== FILE: sorting.dfy ===
/** Ordering by an integer key, as the views do with `Array.prototype.sort`
    and a numeric comparator, plus the `slice(0, n)` that keeps a prefix. */
module Sorting {
  import opened Wrappers

  /** `xs` is in ascending key order. */
  predicate Ascending<T>(xs: seq<T>, key: T -> int) {
    forall i, j :: 0 <= i < j < |xs| ==> key(xs[i]) <= key(xs[j])
  }

  /** `xs` is in descending key order. */
  predicate Descending<T>(xs: seq<T>, key: T -> int) {
    forall i, j :: 0 <= i < j < |xs| ==> key(xs[i]) >= key(xs[j])
  }

  /** Places `x` into the ascending `xs`, before every element with an equal
      key. */
  function Insert<T>(x: T, xs: seq<T>, key: T -> int): (r: seq<T>)
    requires Ascending(xs, key)
    ensures Ascending(r, key)
    ensures multiset(r) == multiset(xs) + multiset{x}
    ensures |r| == |xs| + 1
  {
    if xs == [] || key(x) <= key(xs[0]) then
      [x] + xs
    else
      var rest := Insert(x, xs[1..], key);
      assert xs == [xs[0]] + xs[1..];
      forall j | 0 <= j < |rest|
        ensures key(xs[0]) <= key(rest[j])
      {
        assert rest[j] in multiset(rest);
        if rest[j] != x {
          assert rest[j] in multiset(xs[1..]);
          var k :| 0 <= k < |xs[1..]| && xs[1..][k] == rest[j];
          assert xs[k + 1] == rest[j];
        }
      }
      [xs[0]] + rest
  }

  /** A stable insertion sort by ascending key: the result is a permutation
      of the input in ascending key order. */
  function SortByKey<T>(xs: seq<T>, key: T -> int): (r: seq<T>)
    ensures Ascending(r, key)
    ensures multiset(r) == multiset(xs)
    ensures |r| == |xs|
  {
    if xs == [] then []
    else
      assert xs == [xs[0]] + xs[1..];
      Insert(xs[0], SortByKey(xs[1..], key), key)
  }

  /** A sort by descending key, written as the views' comparator
      `(a, b) => key(b) - key(a)` is: ascending on the negated key. */
  function SortDescending<T>(xs: seq<T>, key: T -> int): (r: seq<T>)
    ensures Descending(r, key)
    ensures multiset(r) == multiset(xs)
    ensures |r| == |xs|
  {
    var r := SortByKey(xs, x => -key(x));
    assert Ascending(r, x => -key(x));
    r
  }

  /** `Array.prototype.slice(0, n)`: the first `n` elements, or all of them. */
  function Take<T>(xs: seq<T>, n: nat): (r: seq<T>)
    ensures |r| == if |xs| <= n then |xs| else n
    ensures r == xs[..|r|]
  {
    if |xs| <= n then xs else xs[..n]
  }

  /** The first `n` of a descending list are the `n` largest: every element
      cut off has a key no larger than any kept one. */
  lemma {:induction false} TakeOfDescendingKeepsLargest<T>(s: seq<T>, key: T -> int, n: nat)
    requires Descending(s, key)
    ensures var r := Take(s, n);
      forall y | y in multiset(s) - multiset(r) ::
        forall i | 0 <= i < |r| :: key(r[i]) >= key(y)
  {
    var r := Take(s, n);
    var rest := s[|r|..];
    assert s == r + rest;
    assert multiset(s) - multiset(r) == multiset(rest);
    forall y | y in multiset(s) - multiset(r)
      ensures forall i | 0 <= i < |r| :: key(r[i]) >= key(y)
    {
      assert y in rest;
      var m :| 0 <= m < |rest| && rest[m] == y;
      assert s[|r| + m] == y;
    }
  }

  /** A prefix of a descending list is descending. */
  lemma PrefixKeepsOrder<T>(s: seq<T>, r: seq<T>, key: T -> int)
    requires Descending(s, key) && |r| <= |s| && r == s[..|r|]
    ensures Descending(r, key)
  {
    forall i, j | 0 <= i < j < |r|
      ensures key(r[i]) >= key(r[j])
    {
      assert r[i] == s[i] && r[j] == s[j];
    }
  }

  /** `sort((a, b) => key(b) - key(a)).slice(0, n)`: the `n` elements with
      the largest keys, largest first. */
  function TopByKey<T>(xs: seq<T>, key: T -> int, n: nat): (r: seq<T>)
    ensures |r| == if |xs| <= n then |xs| else n
    ensures Descending(r, key)
    ensures multiset(r) <= multiset(xs)
    ensures forall y | y in multiset(xs) - multiset(r) ::
      forall i | 0 <= i < |r| :: key(r[i]) >= key(y)
  {
    var s := SortDescending(xs, key);
    var r := Take(s, n);
    PrefixKeepsOrder(s, r, key);
    assert s == r + s[|r|..];
    TakeOfDescendingKeepsLargest(s, key, n);
    assert multiset(xs) - multiset(r) == multiset(s) - multiset(r);
    r
  }

  /** A JavaScript sort whose comparator reads a key that only some values
      have: on fewer than two elements the comparator is never called and the
      array comes back as it was; on two or more every element is compared at
      least once, so one element without the key makes the sort throw a
      `TypeError` (`None`). Otherwise it sorts by the key. */
  function SortOrThrow<T>(xs: seq<T>, key: T -> Option<int>, descending: bool): (r: Option<seq<T>>)
    ensures r.None? <==> |xs| >= 2 && exists i :: 0 <= i < |xs| && key(xs[i]).None?
    ensures r.Some? ==> multiset(r.value) == multiset(xs) && |r.value| == |xs|
    ensures r.Some? && |xs| >= 2 ==> forall i :: 0 <= i < |r.value| ==> key(r.value[i]).Some?
    ensures r.Some? && descending ==> Descending(r.value, x => key(x).GetOr(0))
    ensures r.Some? && !descending ==> Ascending(r.value, x => key(x).GetOr(0))
  {
    if |xs| < 2 then Some(xs)
    else if forall i :: 0 <= i < |xs| ==> key(xs[i]).Some? then
      var s := if descending then SortDescending(xs, x => key(x).GetOr(0))
               else SortByKey(xs, x => key(x).GetOr(0));
      forall i | 0 <= i < |s|
        ensures key(s[i]).Some?
      {
        assert s[i] in multiset(xs);
      }
      Some(s)
    else None
  }
}

=== FILE: tasks_view.dfy ===
/** The tasks view: its list order, the add form, and the per-task toggle
    and delete actions. */
module TasksView {
  import opened Wrappers
  import opened Times
  import opened Sorting
  import opened Session
  import opened DataService
  import opened Feedback

  /** The add form (`newTask`). */
  datatype TaskForm = TaskForm(title: string, description: string, dueDate: Time, completed: bool)

  /** The form as it starts and as it is reset: empty texts, due now, not
      completed. */
  function EmptyForm(now: int): TaskForm {
    TaskForm("", "", Native(now), false)
  }

  /** The list order as written: ascending by `dueDate.getTime()`, which
      throws unless every due date is a `Date`. */
  function SortAsWritten(tasks: seq<Task>): (r: Option<seq<Task>>)
    ensures r.None? <==> |tasks| >= 2 && exists i :: 0 <= i < |tasks| && !tasks[i].dueDate.Native?
    ensures r.Some? ==> multiset(r.value) == multiset(tasks)
    ensures r.Some? ==> forall i, j :: 0 <= i < j < |r.value| ==> ToMs(r.value[i].dueDate) <= ToMs(r.value[j].dueDate)
  {
    SortOrThrow(tasks, (t: Task) => GetTime(t.dueDate), false)
  }

  /** Tasks come back from the store with their due date as the ISO string
      `addTask` wrote, so as soon as the user has two tasks the written sort
      throws and the list is never shown. */
  lemma SortAsWrittenFailsOnStoredTasks(db: Db, t1: Task, t2: Task, id1: string, id2: string)
    requires t1.dueDate.Native? && t2.dueDate.Native? && t1.userId == t2.userId
    requires id1 != id2 && id1 !in db.tasks && id2 !in db.tasks
    ensures DataService.AddTask(db, t1, id1, None).Ok?
    ensures var db1 := DataService.AddTask(db, t1, id1, None).value.0;
      DataService.AddTask(db1, t2, id2, None).Ok? &&
      var db2 := DataService.AddTask(db1, t2, id2, None).value.0;
      var view := GetTasks(db2, t1.userId);
      id1 in view && id2 in view && SortAsWritten([view[id1], view[id2]]).None?
  {
    var db1 := DataService.AddTask(db, t1, id1, None).value.0;
    var db2 := DataService.AddTask(db1, t2, id2, None).value.0;
    var view := GetTasks(db2, t1.userId);
    assert view[id1].dueDate.Iso?;
    assert !([view[id1], view[id2]][0].dueDate.Native?);
  }

  /** The list order as intended: ascending by due instant, whatever shape
      each due date has. */
  function SortForDisplay(tasks: seq<Task>): (r: seq<Task>)
    ensures multiset(r) == multiset(tasks)
    ensures forall i, j :: 0 <= i < j < |r| ==> ToMs(r[i].dueDate) <= ToMs(r[j].dueDate)
  {
    var r := SortByKey(tasks, (t: Task) => ToMs(t.dueDate));
    assert Ascending(r, (t: Task) => ToMs(t.dueDate));
    r
  }

  /** `loadTasks` as written, for one emission of the tasks stream: the list
      changes only when there is a user and the written sort succeeds; a
      stream error or a throwing sort is only logged. */
  function LoadTasksAsWritten(prev: seq<Task>, user: Cell, emitted: Result<seq<Task>, string>): (r: seq<Task>)
    ensures user.None? || emitted.Err? ==> r == prev
    ensures user.Some? && emitted.Ok? && SortAsWritten(emitted.value).None? ==> r == prev
    ensures user.Some? && emitted.Ok? && SortAsWritten(emitted.value).Some? ==> multiset(r) == multiset(emitted.value)
    ensures user.Some? && emitted.Ok? && SortAsWritten(emitted.value).Some? ==>
      r == SortAsWritten(emitted.value).value
      && forall i, j :: 0 <= i < j < |r| ==> ToMs(r[i].dueDate) <= ToMs(r[j].dueDate)
  {
    if user.None? || emitted.Err? then prev
    else
      match SortAsWritten(emitted.value)
      case None => prev
      case Some(sorted) => sorted
  }

  /** `loadTasks` with the intended sort: every emission of a signed-in
      user's tasks is shown, in due order. */
  function LoadTasks(prev: seq<Task>, user: Cell, emitted: Result<seq<Task>, string>): (r: seq<Task>)
    ensures user.None? || emitted.Err? ==> r == prev
    ensures user.Some? && emitted.Ok? ==> (
      && multiset(r) == multiset(emitted.value)
      && forall i, j :: 0 <= i < j < |r| ==> ToMs(r[i].dueDate) <= ToMs(r[j].dueDate))
  {
    if user.None? || emitted.Err? then prev else SortForDisplay(emitted.value)
  }

  /** After the user adds a second task, the written load keeps showing the
      old list, while the intended one shows both tasks. */
  lemma LoadTasksAfterTwoAdds(prev: seq<Task>, u: User, db: Db, t1: Task, t2: Task, id1: string, id2: string)
    requires t1.dueDate.Native? && t2.dueDate.Native? && t1.userId == u.uid && t2.userId == u.uid
    requires id1 != id2 && id1 !in db.tasks && id2 !in db.tasks
    ensures DataService.AddTask(db, t1, id1, None).Ok?
    ensures var db1 := DataService.AddTask(db, t1, id1, None).value.0;
      DataService.AddTask(db1, t2, id2, None).Ok? &&
      var db2 := DataService.AddTask(db1, t2, id2, None).value.0;
      var view := GetTasks(db2, u.uid);
      id1 in view && id2 in view &&
      LoadTasksAsWritten(prev, Some(u), Ok([view[id1], view[id2]])) == prev &&
      |LoadTasks(prev, Some(u), Ok([view[id1], view[id2]]))| == 2
  {
    SortAsWrittenFailsOnStoredTasks(db, t1, t2, id1, id2);
    var db1 := DataService.AddTask(db, t1, id1, None).value.0;
    var db2 := DataService.AddTask(db1, t2, id2, None).value.0;
    var view := GetTasks(db2, u.uid);
    var r := LoadTasks(prev, Some(u), Ok([view[id1], view[id2]]));
    assert |multiset(r)| == |multiset([view[id1], view[id2]])|;
  }

  /** What the add action leaves behind. `written` is the task handed to the
      data service, if any. */
  datatype AddOutcome = AddOutcome(db: Db, form: TaskForm, isLoading: bool, snack: Snack, written: Option<Task>)

  const AddedMessage: string := "Task added successfully"
  const AddFailedMessage: string := "An error occurred while adding the task"

  /** The task built from the form: the current user's id, the due date as a
      fresh `Date`, and never completed, whatever the form held. */
  function TaskFromForm(form: TaskForm, uid: string): (t: Task)
    ensures t.id.None? && t.userId == uid && !t.completed
    ensures t.title == form.title && t.description == form.description
    ensures t.dueDate.Native? && ToMs(t.dueDate) == ToMs(form.dueDate)
  {
    Task(None, form.title, form.description, ToDate(form.dueDate), false, uid)
  }

  /** `addTask`: without a user nothing is written; otherwise the task is
      written and the form reset, or the failure reported with the form
      kept. Loading ends in every case. */
  function AddTask(form: TaskForm, user: Cell, db: Db, now: int, newId: string, fault: Option<string>): (r: AddOutcome)
    requires newId !in db.tasks
    ensures !r.isLoading
    ensures r.written.Some? <==> user.Some?
    ensures user.None? ==> r.db == db && r.form == form && r.snack == NoSnack
    ensures r.written.Some? ==> r.written.value == TaskFromForm(form, user.value.uid)
    ensures user.Some? && fault.None? ==>
      && r.form == EmptyForm(now) && r.snack == SuccessSnack(AddedMessage)
      && r.db.tasks.Keys == db.tasks.Keys + {newId}
      && r.db.tasks[newId] == r.written.value.(dueDate := Iso(ToMs(form.dueDate)))
      && (forall k :: k in db.tasks ==> r.db.tasks[k] == db.tasks[k])
      && r.db.goals == db.goals && r.db.notes == db.notes
    ensures user.Some? && fault.Some? ==> r.db == db && r.form == form && r.snack == ErrorSnack(AddFailedMessage)
  {
    match user
    case None => AddOutcome(db, form, false, NoSnack, None)
    case Some(u) =>
      var task := TaskFromForm(form, u.uid);
      match DataService.AddTask(db, task, newId, fault)
      case Ok((db', _)) => AddOutcome(db', EmptyForm(now), false, SuccessSnack(AddedMessage), Some(task))
      case Err(_) => AddOutcome(db, form, false, ErrorSnack(AddFailedMessage), Some(task))
  }

  /** The patch that writes every field of a task. */
  function WholeTask(t: Task): TaskPatch {
    TaskPatch(Some(t.title), Some(t.description), Some(t.dueDate), Some(t.completed), Some(t.userId))
  }

  /** What `toggleTask` leaves behind: the flipped local task, the store
      after the update (or its failure), and whether the device vibrated. */
  datatype ToggleOutcome = ToggleOutcome(task: Task, db: Result<Db, Failure>, vibrated: bool)

  /** `toggleTask`: flips `completed`, writes the whole task to its own id,
      and vibrates only when the task became completed and the write
      succeeded. */
  function ToggleTask(task: Task, db: Db, fault: Option<string>): (r: ToggleOutcome)
    ensures r.task == task.(completed := !task.completed)
    ensures r.db.Ok? <==> fault.None? && IdOrUndefined(task.id) in db.tasks
    ensures r.db.Ok? ==> var id := IdOrUndefined(task.id);
      && r.db.value.tasks.Keys == db.tasks.Keys
      && r.db.value.tasks[id] == StoredTask(r.task).(id := db.tasks[id].id)
      && (forall k :: k in db.tasks && k != id ==> r.db.value.tasks[k] == db.tasks[k])
      && r.db.value.goals == db.goals && r.db.value.notes == db.notes
    ensures r.vibrated <==> r.db.Ok? && !task.completed
  {
    var flipped := task.(completed := !task.completed);
    var written := UpdateTask(db, IdOrUndefined(task.id), WholeTask(flipped), fault);
    ToggleOutcome(flipped, written, written.Ok? && flipped.completed)
  }

  /** `deleteTask`: deletes exactly the task's own id. */
  function DeleteTask(task: Task, db: Db, fault: Option<string>): (r: Result<Db, Failure>)
    ensures r.Ok? <==> fault.None?
    ensures r.Ok? ==> (IdOrUndefined(task.id) !in r.value.tasks
                       && r.value.tasks.Keys == db.tasks.Keys - {IdOrUndefined(task.id)}
                       && (forall k :: k in r.value.tasks ==> r.value.tasks[k] == db.tasks[k])
                       && r.value.goals == db.goals && r.value.notes == db.notes)
  {
    DataService.DeleteTask(db, IdOrUndefined(task.id), fault)
  }
}

=== FILE: times.dfy ===
/** The three shapes an instant takes in this app, and the conversions the
    code applies between them. Every shape carries the instant as integer
    milliseconds since the epoch, so conversions are exact. */
module Times {
  import opened Wrappers

  /** A JavaScript `Date`, a Firestore `Timestamp`, or an ISO-8601 string. */
  datatype Time = Native(ms: int) | FsTimestamp(ms: int) | Iso(ms: int)

  /** The instant a time denotes, whatever its shape. */
  function ToMs(t: Time): int {
    t.ms
  }

  /** `Date.prototype.toISOString`: only a `Date` has it; on anything else the
      call is a `TypeError`. */
  function ToIsoString(t: Time): (r: Option<Time>)
    ensures r.Some? <==> t.Native?
    ensures r.Some? ==> r.value.Iso? && ToMs(r.value) == ToMs(t)
  {
    if t.Native? then Some(Iso(t.ms)) else None
  }

  /** How Firestore stores a field value: a JavaScript `Date` is written as a
      `Timestamp`; strings and timestamps are stored as they are. What is read
      back later is this stored shape. */
  function StoreEncode(t: Time): (r: Time)
    ensures ToMs(r) == ToMs(t)
    ensures !r.Native?
    ensures !t.Native? ==> r == t
    ensures t.Iso? <==> r.Iso?
  {
    if t.Native? then FsTimestamp(t.ms) else t
  }

  /** `Date.prototype.getTime`: only a `Date` has it. */
  function GetTime(t: Time): (r: Option<int>)
    ensures r.Some? <==> t.Native?
    ensures r.Some? ==> r.value == ToMs(t)
  {
    if t.Native? then Some(t.ms) else None
  }

  /** The notes list's key: `getTime()` for a `Date`, `toMillis()` otherwise
      (which only a `Timestamp` has). */
  function DateOrTimestampMillis(t: Time): (r: Option<int>)
    ensures r.Some? <==> !t.Iso?
    ensures r.Some? ==> r.value == ToMs(t)
  {
    if t.Native? then Some(t.ms)
    else if t.FsTimestamp? then Some(t.ms)
    else None
  }

  /** The dashboard's `convertToDate`: a missing value becomes the epoch, a
      `Timestamp` becomes its `Date`, and anything else is returned as it is
      (so an ISO string stays a string). */
  function ConvertToDate(d: Option<Time>): (r: Time)
    ensures d.None? ==> r == Native(0)
    ensures d.Some? ==> ToMs(r) == ToMs(d.value)
    ensures r.Native? <==> (d.None? || !d.value.Iso?)
    ensures d.Some? && d.value.Iso? ==> r == d.value
  {
    match d
    case None => Native(0)
    case Some(FsTimestamp(ms)) => Native(ms)
    case Some(t) => t
  }

  /** A canonical `Date` for any shape (`Timestamp.toDate()`, `new Date(string)`,
      or the `Date` itself). */
  function ToDate(t: Time): (r: Time)
    ensures r.Native? && ToMs(r) == ToMs(t)
  {
    Native(t.ms)
  }

  /** The argument of a `formatDate` call: missing or empty (falsy), one of
      the three time shapes, or a value of some other type. */
  datatype DateArg = Missing | Given(t: Time) | Unrecognised

  /** The dashboard's `formatDate` branch selection: `None` is the empty
      string; `Some(ms)` is the locale date string of that instant (the
      formatting itself is not modelled). */
  function DashboardFormatDate(arg: DateArg): (r: Option<int>)
    ensures r.Some? <==> arg.Given?
    ensures r.Some? ==> r.value == ToMs(arg.t)
  {
    match arg
    case Given(t) => Some(ToMs(t))
    case _ => None
  }

  /** The notes view's `formatDate`: like the dashboard's, but it knows only
      `Timestamp` and `Date`, so a string also gives the empty string. */
  function NotesFormatDate(arg: DateArg): (r: Option<int>)
    ensures r.Some? <==> (arg.Given? && !arg.t.Iso?)
    ensures r.Some? ==> r.value == ToMs(arg.t)
  {
    match arg
    case Given(Native(ms)) => Some(ms)
    case Given(FsTimestamp(ms)) => Some(ms)
    case _ => None
  }

  /** The two `formatDate`s disagree exactly on ISO strings. */
  lemma FormatDatesDifferOnlyOnStrings(arg: DateArg)
    ensures DashboardFormatDate(arg) != NotesFormatDate(arg) <==> (arg.Given? && arg.t.Iso?)
  {
  }
}

=== FILE: wrappers.dfy ===
/** Failure-carrying datatypes shared by the whole model: an absent value
    (JavaScript's `null`/`undefined`) and an operation that either
    completes or throws. */
module Wrappers {

  /** A value that may be missing. */
  datatype Option<+T> = None | Some(value: T) {

    /** The value, or `default` when missing (JavaScript's `x || default`
        for a value that cannot itself be falsy). */
    function GetOr(default: T): T {
      match this
      case Some(v) => v
      case None => default
    }
  }

  /** The outcome of an operation that either completes with a value or throws. */
  datatype Result<+T, +E> = Ok(value: T) | Err(error: E)
}
